=== FILE: README.md ===
# Spring endpoint reader and collected info objects, in Dafny

This project models the part of the codebased-documentation Maven plugin that
finds the REST endpoints of a Spring Boot code base. It also models three
plain data holders the plugin fills while collecting.

The Spring reader walks the classes of a source tree. A class is read when:

- it carries a controller marker (`Controller`, `RestController`, `Component`
  or `Service`), or
- it carries a class-level mapping annotation.

For every method of such a class, each mapping annotation becomes a list of
(path, HTTP method) pairs. Those pairs are then merged with the class's base
mapping:

- a concrete method under a base is joined with every base path;
- an unresolved method inherits the base entry's method;
- with no method anywhere, a path is fanned out to all seven HTTP methods.

Paths are normalised by `startWithSlash` and `startWithoutSlash`: trim, then
add or drop one leading `/`.

The model is split by concern:

| module | file | what it holds |
|---|---|---|
| `Wrappers` | wrappers.dfy | `Option`, standing for a Java reference that may be null |
| `Seqs` | seqs.dfy | `Map`, `FlatMap` (concatenating per-element results) and their append, cons, membership and all-elements lemmas |
| `JavaStrings` | java_strings.dfy | `String.trim`, removing `"` characters, `List.indexOf` |
| `HttpTables` | http_tables.dfy | the three constant tables and the lookups into them |
| `Slashes` | slashes.dfy | `startWithSlash`, `startWithoutSlash` and the path join of the merge |
| `Annotations` | annotations.dfy | `getMapping`: the pairs one annotation resolves to |
| `Merge` | merge.dfy | `getMethodAnnotations`: merging with the base mapping |
| `SpringReader` | spring_reader.dfy | `getBaseMappingAndController` and `getPathsAndMethods` |
| `ModuleToComponentInfo` | module_to_component.dfy | `ModuleToComponentInfoObject` |
| `CollectedApiInfo` | collected_api.dfy | `CollectedAPIInfoObject` |
| `CollectedMavenInfo` | collected_maven.dfy | `CollectedMavenInfoObject` |

Representation choices:

- The parsed source tree is a sequence of `JavaClass` values. Each class holds its
  annotations and its methods; each method holds its annotations.
- An annotation has three parts:
  - its simple type name;
  - its `value` attribute;
  - its `method` attribute.

  An attribute is absent, a string, a list of strings, or something else.
- A pair's method is `Option<HttpMethod>`, and `None` stands for the null method. The
  reader returns `Pair<String, String>` with the method's name. Here the
  method is the datatype, and `HttpTables.Name` gives that name.
- The element types the info objects only store are type parameters:
  components, modules, consume descriptions and the provided API.
- The method order used by every "all methods" expansion is GET, PUT, POST,
  DELETE, HEAD, OPTIONS, PATCH. The reader refers to it as
  `HTTP_METHOD_TYPE`. The only definition of it in the code is the one
  commented out in `src/main/java/reader/interfaces/APIReader.java` line 12.
- The `HTTP_METHODS_MAPPING` table is modelled literally.
  - Its HEAD slot is null, so no annotation name ever fixes HEAD.
  - Its OPTIONS slot is the empty string. So an annotation whose simple name
    is empty counts as a mapping and resolves to OPTIONS
    (`HttpTables.ShorthandMethodTable`).
- Path handling in the merge, as the code does it:
  - The join drops the base's leading slash (SPRINGReader.java:144):
    `JoinPath("/rest", "/x")` is `"rest/x"` (`Slashes.JoinExampleRest`).
  - An empty method-level path under base `"/base"` gives `"base"`
    (SPRINGReader.java:144, `Slashes.JoinExampleEmptySuffix`).
  - A base ending in `/` gives a double slash, `"rest//x"`
    (SPRINGReader.java:144, `Slashes.JoinExampleTrailingSlash`).
  - A pair with a concrete method and no base is kept exactly as resolved,
    leading slash included (SPRINGReader.java:147-148,
    `Merge.MergeConcreteNoBase`).
  - A pair with neither a method nor a base loses its leading slash
    (SPRINGReader.java:164-168, `Merge.MergeUnresolvedNoBase`).

## Model

| member | source | states |
|---|---|---|
| JavaStrings.Trim | src/main/java/reader/SPRINGReader.java:256 | the result has no character at or below U+0020 at either end and is no longer than the input |
| JavaStrings.TrimStart | src/main/java/reader/SPRINGReader.java:256 | the result is a suffix of the input; everything cut off is a trimmable character, and the first kept one is not |
| JavaStrings.TrimEnd | src/main/java/reader/SPRINGReader.java:256 | the result is a prefix of the input; everything cut off is trimmable, and the last kept one is not |
| JavaStrings.TrimIsSlice | src/main/java/reader/SPRINGReader.java:256 | the trimmed string is a contiguous slice of the input |
| JavaStrings.TrimTrimmed | src/main/java/reader/SPRINGReader.java:256 | a string without trimmable ends is left unchanged |
| JavaStrings.TrimIdempotent | src/main/java/reader/SPRINGReader.java:256 | trimming twice is trimming once |
| JavaStrings.RemoveQuotes | src/main/java/reader/SPRINGReader.java:236 | the result has no `"`; its length is the input's minus the number of `"` in it, so every quote is dropped rather than replaced; a quote-free input is unchanged |
| JavaStrings.RemoveQuotesAppend | src/main/java/reader/SPRINGReader.java:236 | removing quotes distributes over concatenation |
| JavaStrings.IndexOf | src/main/java/reader/SPRINGReader.java:212 | -1 exactly when the element is absent; otherwise the index of its first occurrence |
| HttpTables.AllMethodsEnumerates | src/main/java/reader/interfaces/APIReader.java:12 | every HTTP method occurs in the seven-entry order exactly once |
| HttpTables.TokensMatchMethods | src/main/java/reader/SPRINGReader.java:45-52 | the i-th token of `HTTP_METHODS` is `RequestMethod.` followed by the i-th method's name |
| HttpTables.LookupToken | src/main/java/reader/SPRINGReader.java:211-213 | `HTTP_METHODS.indexOf` followed by `HTTP_METHOD_TYPE.get`: the method at the token's index, or none. It has no contract of its own; `HttpTables.LookupTokenSound` and `HttpTables.LookupTokenRoundTrip` state what it computes |
| HttpTables.LookupTokenSound | src/main/java/reader/SPRINGReader.java:211-213 | a token resolves exactly when it is in the token table, and then to the method whose token it is |
| HttpTables.LookupTokenRoundTrip | src/main/java/reader/SPRINGReader.java:45-52 | looking up a method's token gives that method back |
| HttpTables.NameInjective | src/main/java/reader/SPRINGReader.java:46-52 | distinct methods have distinct names |
| HttpTables.TokenInjective | src/main/java/reader/SPRINGReader.java:46-52 | distinct methods have distinct tokens |
| HttpTables.TokenInTable | src/main/java/reader/SPRINGReader.java:45-52 | every method's token is in the token table |
| HttpTables.ShorthandMethod | src/main/java/reader/SPRINGReader.java:228-232 | `HTTP_METHODS_MAPPING.indexOf` of the annotation name, then the method at that index. It has no contract of its own; `HttpTables.ShorthandMethodTable`, `HttpTables.ShorthandMethodNamed` and `HttpTables.ShorthandIndex` state its result for every name |
| HttpTables.ShorthandMethodTable | src/main/java/reader/SPRINGReader.java:54-61 | a name fixes a method exactly when it is in the shorthand table; HEAD is never fixed; OPTIONS is fixed exactly by the empty name |
| HttpTables.ShorthandMethodNamed | src/main/java/reader/SPRINGReader.java:228-232 | GetMapping, PutMapping, PostMapping, DeleteMapping and PatchMapping fix GET, PUT, POST, DELETE and PATCH |
| HttpTables.ShorthandIndex | src/main/java/reader/SPRINGReader.java:228 | the position of every name in the shorthand table; -1 for any other name |
| HttpTables.Categorize | src/main/java/reader/SPRINGReader.java:108-113 | a controller marker is a controller and nothing else; otherwise a mapping name is a mapping; otherwise the annotation is irrelevant (each as an if-and-only-if) |
| Slashes.StartWithSlash | src/main/java/reader/SPRINGReader.java:255-261 | the result is empty exactly when the trimmed input is; otherwise it starts with `/`; it is the trimmed input, with `/` prepended when that did not start with one |
| Slashes.StartWithoutSlash | src/main/java/reader/SPRINGReader.java:269-276 | the trimmed input is the result, or `/` followed by the result when it started with `/` |
| Slashes.StartWithSlashIdempotent | src/main/java/reader/SPRINGReader.java:255-261 | normalising to a leading slash twice is normalising once |
| Slashes.SlashNormalFormsAgree | src/main/java/reader/SPRINGReader.java:255-276 | for a non-blank input, the with-slash form is `/` followed by the without-slash form; a blank input gives empty in both |
| Slashes.JoinPath | src/main/java/reader/SPRINGReader.java:144 | the path built from a base entry and a method-level path, here and at lines 154 and 159. It has no contract of its own; `Slashes.JoinPathSeam` and `Slashes.JoinLeadingSlash` state it |
| Slashes.JoinPathSeam | src/main/java/reader/SPRINGReader.java:144 | a joined path is the base without its slash, followed by nothing for a blank suffix, else by `/` and the suffix without its slash |
| Slashes.StripKeepsSlash | src/main/java/reader/SPRINGReader.java:269-276 | `startWithoutSlash` removes exactly one leading `/`: its result still starts with `/` exactly when the trimmed input starts with `//` |
| Slashes.JoinLeadingSlash | src/main/java/reader/SPRINGReader.java:144 | a joined path starts with `/` exactly when the base keeps a `/` after one is stripped, or the stripped base is empty and the method-level path is not blank |
| Slashes.JoinExampleRest | src/main/java/reader/SPRINGReader.java:144 | `/rest` joined with `/x` is `rest/x` |
| Slashes.JoinExampleEmptySuffix | src/main/java/reader/SPRINGReader.java:144 | `/base` joined with the empty path is `base` |
| Slashes.JoinExampleTrailingSlash | src/main/java/reader/SPRINGReader.java:144 | `/rest/` joined with `/x` is `rest//x` |
| Annotations.RawPaths | src/main/java/reader/SPRINGReader.java:192-204 | the paths before quote removal: a string value trimmed, list elements as they are, `""` for an absent value, none for any other shape. It has no contract of its own; `Annotations.ResolveStringValue`, `Annotations.ResolveListValue`, `Annotations.ResolveListNotTrimmed`, `Annotations.ResolveAbsentValue` and `Annotations.ResolveOtherValue` state these cases |
| Annotations.TokensToMethods | src/main/java/reader/SPRINGReader.java:209-215 | each listed token looked up in turn, unrecognised ones dropped. It has no contract of its own; `Annotations.TokensToMethodsMembers`, `Annotations.TokensToMethodsAppend`, `Annotations.TokensToMethodsSingle` and `Annotations.TokensKeepDuplicates` state it |
| Annotations.TokensToMethodsMembers | src/main/java/reader/SPRINGReader.java:209-215 | a method is among those a token list resolves to exactly when its token is in the list |
| Annotations.TokensToMethodsAppend | src/main/java/reader/SPRINGReader.java:210-215 | tokens resolve one at a time, in order |
| Annotations.TokensToMethodsSingle | src/main/java/reader/SPRINGReader.java:216-220 | an unrecognised token resolves to nothing; a method's token resolves to that one method |
| Annotations.TokensKeepDuplicates | src/main/java/reader/SPRINGReader.java:210-215 | a token given twice yields its method twice |
| Annotations.ResolveMethods | src/main/java/reader/SPRINGReader.java:206-233 | the `methods` list of `getMapping`, with `None` for null. It has no contract of its own; `Annotations.ResolveMethodsSpec` states it |
| Annotations.ResolveMethodsSpec | src/main/java/reader/SPRINGReader.java:206-233 | for `RequestMapping`: the methods are null exactly when the `method` attribute is neither a string nor a list, and a string resolves like a one-element list. For any other name: at most one method, the one its shorthand fixes |
| Annotations.PairsForSpec | src/main/java/reader/SPRINGReader.java:238-240 | one pair per method on the same path, in method order |
| Annotations.ExpandPath | src/main/java/reader/SPRINGReader.java:235-244 | the pairs of one path. It has no contract of its own; `Annotations.ExpandSingle` and `Annotations.ExpandPathMember` state it |
| Annotations.Expand | src/main/java/reader/SPRINGReader.java:235-244 | the pairs of all paths, path by path. It has no contract of its own; `Annotations.ExpandAppend`, `Annotations.ExpandCons`, `Annotations.ExpandMember`, `Annotations.ExpandUnresolved`, `Annotations.ExpandLength` and `Annotations.ExpandPairs` state it |
| Annotations.ExpandSingle | src/main/java/reader/SPRINGReader.java:235-244 | one path gives, with its quotes removed, one pair per resolved method where the j-th pair carries the j-th method (order and duplicates kept), or exactly one null-method pair when there are none |
| Annotations.ExpandAppend | src/main/java/reader/SPRINGReader.java:235-244 | paths are expanded one at a time, in order |
| Annotations.ExpandCons | src/main/java/reader/SPRINGReader.java:235-244 | the first path's pairs come first |
| Annotations.ExpandMember | src/main/java/reader/SPRINGReader.java:235-244 | every produced path is quote-free; its method is one of the resolved methods when there are any, else null |
| Annotations.ExpandUnresolved | src/main/java/reader/SPRINGReader.java:241-243 | with null or no methods, each path gives exactly one pair, with a null method |
| Annotations.ExpandLength | src/main/java/reader/SPRINGReader.java:237-240 | with methods present, the count is the number of paths times the number of methods |
| Annotations.ExpandPathMember | src/main/java/reader/SPRINGReader.java:236 | every pair of one path carries that path with its quotes removed |
| Annotations.CleanPaths | src/main/java/reader/SPRINGReader.java:236 | one cleaned path per path |
| Annotations.ExpandPairs | src/main/java/reader/SPRINGReader.java:235-240 | a (path, method) pair is produced exactly when the path is among the cleaned paths and the method among the methods |
| Annotations.Resolve | src/main/java/reader/SPRINGReader.java:186-247 | `getMapping`: every path paired with every resolved method, or with a null method when there are none. It has no contract of its own; `Annotations.ResolveRequestMapping`, `Annotations.ResolveShorthand`, `Annotations.ResolveUnresolved` and `Annotations.ResolveNoQuotes` state its result |
| Annotations.ResolveCount | src/main/java/reader/SPRINGReader.java:186-247 | the number of pairs is the number of paths times the number of resolved methods, or times one when there are none |
| Annotations.ResolveNoQuotes | src/main/java/reader/SPRINGReader.java:236 | no resolved path contains `"` |
| Annotations.ResolveOtherValue | src/main/java/reader/SPRINGReader.java:198-203 | a `value` that is neither a string, a list nor absent gives no pairs |
| Annotations.ResolveAbsentValue | src/main/java/reader/SPRINGReader.java:199-200 | an absent `value` is exactly one path, the empty one: as many pairs as resolved methods, or a single null-method pair, all on `""` |
| Annotations.ResolveStringValue | src/main/java/reader/SPRINGReader.java:194-195 | a string `value` is exactly one path, trimmed and then with its quotes removed: as many pairs as resolved methods, or a single null-method pair, all on that path |
| Annotations.ResolveListValue | src/main/java/reader/SPRINGReader.java:196-197 | a list `value` gives elements times methods pairs; without methods the i-th pair is the i-th element, quotes removed, with a null method; with methods (p, m) is produced exactly when p is a cleaned element and m a resolved method |
| Annotations.ResolveListNotTrimmed | src/main/java/reader/SPRINGReader.java:196-197 | list elements are taken untrimmed: a `GetMapping` with list value `[" x "]` resolves to `(" x ", GET)` |
| Annotations.ResolveShorthand | src/main/java/reader/SPRINGReader.java:227-232 | a shorthand annotation gives one pair per path carrying its fixed method, whatever its `method` attribute says |
| Annotations.ShorthandSingle | src/main/java/reader/SPRINGReader.java:237-240 | expanding with a single method gives one pair per path, in path order |
| Annotations.ResolveUnresolved | src/main/java/reader/SPRINGReader.java:221-226 | a `RequestMapping` whose `method` attribute is not a string or list gives one null-method pair per path |
| Annotations.ResolveRequestMapping | src/main/java/reader/SPRINGReader.java:206-215 | a `RequestMapping` with a token list gives paths times methods pairs, and (p, m) is among them exactly when p is a cleaned path and m's token is listed |
| Merge.AllMethodsAtSpec | src/main/java/reader/SPRINGReader.java:165-168 | "any method" on a path is seven pairs on that path, one per method in table order |
| Merge.AllMethodsAtMember | src/main/java/reader/SPRINGReader.java:165-168 | "any method" on a path gives exactly the pairs on that path that carry a concrete method |
| Merge.JoinEach | src/main/java/reader/SPRINGReader.java:142-146 | a concrete method-level method joined under each base entry. It has no contract of its own; `Merge.JoinEachSpec` and `Merge.MergeConcreteWithBase` state it |
| Merge.JoinEachSpec | src/main/java/reader/SPRINGReader.java:142-146 | one joined pair per base entry, in base order, all with the method-level method |
| Merge.MergePair | src/main/java/reader/SPRINGReader.java:141-170 | the four branches for one method-level pair. It has no contract of its own; `Merge.MergeConcreteWithBase`, `Merge.MergeConcreteEmptyBase`, `Merge.MergeConcreteNoBase`, `Merge.MergeUnresolvedWithBase`, `Merge.MergeUnresolvedNoBase` and `Merge.MergePairResolved` state each branch |
| Merge.MergeConcreteWithBase | src/main/java/reader/SPRINGReader.java:141-146 | a concrete method under a base gives the i-th base path joined with the method path, for each base entry |
| Merge.MergeConcreteEmptyBase | src/main/java/reader/SPRINGReader.java:141-146 | a present but empty base swallows a concrete-method pair |
| Merge.MergeConcreteNoBase | src/main/java/reader/SPRINGReader.java:147-148 | a concrete method without a base is kept as it is |
| Merge.MergeUnresolvedNoBase | src/main/java/reader/SPRINGReader.java:164-168 | no method and no base gives seven pairs on the path without its leading slash |
| Merge.InheritOne | src/main/java/reader/SPRINGReader.java:151-162 | what one base entry gives an unresolved method-level pair. It has no contract of its own; `Merge.InheritOneMember`, `Merge.InheritSingle` and `Merge.InheritOneResolved` state it |
| Merge.InheritEach | src/main/java/reader/SPRINGReader.java:150-163 | the contributions of all base entries, in base order. It has no contract of its own; `Merge.InheritEachAppend` and `Merge.MergeUnresolvedWithBase` state it |
| Merge.InheritOneMember | src/main/java/reader/SPRINGReader.java:151-162 | a base entry gives exactly the pairs on the joined path with a concrete method: its own method when it has one, any method when it has none |
| Merge.MergeUnresolvedWithBase | src/main/java/reader/SPRINGReader.java:150-163 | an unresolved method under a base gives (p, m) exactly when some base entry joined with the method-level path is p and m is that entry's method, or any method if the entry has none |
| Merge.InheritEachAppend | src/main/java/reader/SPRINGReader.java:151-163 | base entries contribute one after another, in order |
| Merge.InheritSingle | src/main/java/reader/SPRINGReader.java:152-162 | a base entry with a method passes that method to the joined path; one without gives all seven methods |
| Merge.InheritOneResolved | src/main/java/reader/SPRINGReader.java:152-162 | inheriting never leaves a null method |
| Merge.MergePairResolved | src/main/java/reader/SPRINGReader.java:141-170 | every merged pair has a concrete method, on all four branches |
| Merge.MergePairsResolved | src/main/java/reader/SPRINGReader.java:140-171 | the same for all pairs of one annotation |
| Merge.AnnotationEndpoints | src/main/java/reader/SPRINGReader.java:136-138 | one annotation of a method: the merge of its resolved pairs if it is a mapping annotation, else nothing. It has no contract of its own; `Merge.MethodEndpointsSingle` states it |
| Merge.MethodEndpoints | src/main/java/reader/SPRINGReader.java:128-176 | `getMethodAnnotations`: the merged pairs of each mapping annotation of a method, in annotation order. It has no contract of its own; `Merge.MethodEndpointsSingle`, `Merge.MethodEndpointsAppend` and `Merge.MethodEndpointsResolved` state it, and `Merge.MergePairsSingle` and `Merge.MergePairsAppend` carry each resolved pair to its branch of `Merge.MergePair` |
| Merge.MethodEndpointsResolved | src/main/java/reader/SPRINGReader.java:128-176 | every pair `getMethodAnnotations` returns has a concrete method |
| Merge.MergePairs | src/main/java/reader/SPRINGReader.java:140-171 | the loop over one annotation's resolved pairs. It has no contract of its own; `Merge.MergePairsSingle`, `Merge.MergePairsAppend` and `Merge.MergePairsResolved` state it |
| Merge.MergePairsSingle | src/main/java/reader/SPRINGReader.java:140-171 | a single resolved pair is merged by exactly its branch of `Merge.MergePair` |
| Merge.MergePairsAppend | src/main/java/reader/SPRINGReader.java:140 | pairs are merged one at a time, in order |
| Merge.MethodEndpointsAppend | src/main/java/reader/SPRINGReader.java:133-173 | annotations contribute one after another, in order |
| Merge.MethodEndpointsSingle | src/main/java/reader/SPRINGReader.java:136-138 | a mapping annotation contributes the merge of its resolved pairs; any other annotation contributes nothing |
| SpringReader.LastMappingIndex | src/main/java/reader/SPRINGReader.java:105-113 | -1 exactly when no annotation is a mapping; otherwise the index of a mapping with no mapping after it |
| SpringReader.GetBaseMappingAndController | src/main/java/reader/SPRINGReader.java:102-116 | the class is a controller exactly when some annotation is a controller marker; the base is the resolution of the last mapping annotation, or null |
| SpringReader.Absorb | src/main/java/reader/SPRINGReader.java:108-113 | one iteration of the class-annotation loop. It has no contract of its own; `SpringReader.ClassAnnotationStep` states its three cases and `SpringReader.AbsorbPrefix` relates it to the summary of the annotations seen so far |
| SpringReader.AbsorbPrefix | src/main/java/reader/SPRINGReader.java:105-113 | one loop step turns the summary of a prefix into the summary of the next prefix |
| SpringReader.ClassAnnotationStep | src/main/java/reader/SPRINGReader.java:108-113 | a marker sets the flag and keeps the base; a mapping replaces the base and keeps the flag; anything else changes nothing |
| SpringReader.ClassPrefixStep | src/main/java/reader/SPRINGReader.java:105-113 | the same step stated on prefixes of the annotation list |
| SpringReader.ControllerMarkerSnoc | src/main/java/reader/SPRINGReader.java:108-109 | a list has a controller marker exactly when its front does or its last annotation is one |
| SpringReader.LastMappingWins | src/main/java/reader/SPRINGReader.java:110-112 | a later mapping annotation overrides the base; a later non-mapping one leaves it |
| SpringReader.ClassEndpoints | src/main/java/reader/SPRINGReader.java:79-87 | what one class contributes: the pairs of its methods when it is a controller or has a base, else nothing. It has no contract of its own; `SpringReader.ClassSkipped` and `SpringReader.MethodsEndpointsResolved` state it, and `SpringReader.ClassPathsAndMethods` is proved to compute it |
| SpringReader.ClassPathsAndMethods | src/main/java/reader/SPRINGReader.java:79-87 | one class contributes the pairs of its methods in order when it is a controller or has a base, and nothing otherwise |
| SpringReader.GetPathsAndMethods | src/main/java/reader/SPRINGReader.java:71-91 | the result is the classes' contributions in class order, and every pair has a concrete method |
| SpringReader.Extract | src/main/java/reader/SPRINGReader.java:77-88 | the contributions of all classes, in class order: the reference definition `SpringReader.GetPathsAndMethods` is proved to compute. It has no contract of its own; `SpringReader.ExtractAppend` and `SpringReader.ExtractResolved` state it |
| SpringReader.ExtractPrefix | src/main/java/reader/SPRINGReader.java:77-88 | each class appends its contribution after the earlier classes' |
| SpringReader.MethodsEndpoints | src/main/java/reader/SPRINGReader.java:84-86 | the pairs of all methods of one class, in method order. It has no contract of its own; `SpringReader.MethodsEndpointsPrefix`, `SpringReader.MethodsEndpointsSnoc` and `SpringReader.MethodsEndpointsResolved` state it |
| SpringReader.MethodsEndpointsPrefix | src/main/java/reader/SPRINGReader.java:84-86 | each method appends its pairs after the earlier methods' |
| SpringReader.ExtractSnoc | src/main/java/reader/SPRINGReader.java:77-88 | appending a class appends its contribution |
| SpringReader.MethodsEndpointsSnoc | src/main/java/reader/SPRINGReader.java:84-86 | appending a method appends its pairs |
| SpringReader.MethodsEndpointsResolved | src/main/java/reader/SPRINGReader.java:84-86 | every pair of a class's methods has a concrete method |
| SpringReader.ExtractResolved | src/main/java/reader/SPRINGReader.java:71-91 | every pair the reader returns has a concrete method |
| SpringReader.ClassSkipped | src/main/java/reader/SPRINGReader.java:83 | a class with no marker and no mapping annotation contributes nothing, whatever its methods |
| SpringReader.ExtractAppend | src/main/java/reader/SPRINGReader.java:77-88 | classes contribute independently and in order |
| ModuleToComponentInfo.New | src/main/java/collectors/models/maven/ModuleToComponentInfoObject.java:18-20 | the name is recorded and the component list starts null |
| ModuleToComponentInfo.SetComponents | src/main/java/collectors/models/maven/ModuleToComponentInfoObject.java:26-28 | the list is replaced and the name kept |
| ModuleToComponentInfo.SetModuleName | src/main/java/collectors/models/maven/ModuleToComponentInfoObject.java:41-43 | the name is replaced and the list kept |
| ModuleToComponentInfo.AddComponent | src/main/java/collectors/models/maven/ModuleToComponentInfoObject.java:30-35 | a null list becomes the one-element list; an existing list keeps its elements and gains the component at its end |
| ModuleToComponentInfo.AddComponentsAppend | src/main/java/collectors/models/maven/ModuleToComponentInfoObject.java:30-35 | adding components one by one to an existing list appends them all, in order |
| ModuleToComponentInfo.AddComponentsToNew | src/main/java/collectors/models/maven/ModuleToComponentInfoObject.java:18-35 | a fresh object given a non-empty sequence of components holds exactly that sequence |
| CollectedApiInfo.New | src/main/java/collectors/models/restapi/CollectedAPIInfoObject.java:19-25 | a non-null name is kept; a null name becomes the default service name; everything else starts null |
| CollectedApiInfo.SetServiceName | src/main/java/collectors/models/restapi/CollectedAPIInfoObject.java:31-33 | the name is replaced and all other fields are kept |
| CollectedApiInfo.SetServiceTag | src/main/java/collectors/models/restapi/CollectedAPIInfoObject.java:39-41 | the tag is replaced and all other fields are kept |
| CollectedApiInfo.SetProvide | src/main/java/collectors/models/restapi/CollectedAPIInfoObject.java:47-49 | the provided API is replaced and all other fields are kept |
| CollectedApiInfo.SetConsume | src/main/java/collectors/models/restapi/CollectedAPIInfoObject.java:55-57 | the consume list is replaced and all other fields are kept |
| CollectedApiInfo.AddConsume | src/main/java/collectors/models/restapi/CollectedAPIInfoObject.java:59-64 | a null list becomes the one-element list; an existing list gains the triple at its end; nothing else changes |
| CollectedApiInfo.AddConsumeAll | src/main/java/collectors/models/restapi/CollectedAPIInfoObject.java:66-71 | the triples are appended in order; a null list is first made empty, so the list is non-null afterwards |
| CollectedApiInfo.AddConsumeAllIsEach | src/main/java/collectors/models/restapi/CollectedAPIInfoObject.java:59-71 | adding a collection is adding its triples one at a time, unless the list is null and the collection empty |
| CollectedApiInfo.AddConsumeAllEmpty | src/main/java/collectors/models/restapi/CollectedAPIInfoObject.java:66-71 | on a null list, adding an empty collection leaves an empty list, unlike adding nothing |
| CollectedMavenInfo.New | src/main/java/collectors/models/maven/CollectedMavenInfoObject.java:18-23 | tag, system and subsystem are stored as given; the collections start null |
| CollectedMavenInfo.SetModuleDependencies | src/main/java/collectors/models/maven/CollectedMavenInfoObject.java:29-31 | the map is replaced and all other fields are kept |
| CollectedMavenInfo.SetModules | src/main/java/collectors/models/maven/CollectedMavenInfoObject.java:44-46 | the modules are replaced and all other fields are kept |
| CollectedMavenInfo.SetComponents | src/main/java/collectors/models/maven/CollectedMavenInfoObject.java:52-54 | the components are replaced and all other fields are kept |
| CollectedMavenInfo.SetTag | src/main/java/collectors/models/maven/CollectedMavenInfoObject.java:60-62 | the tag is replaced and all other fields are kept |
| CollectedMavenInfo.SetSystem | src/main/java/collectors/models/maven/CollectedMavenInfoObject.java:68-70 | the system is replaced and all other fields are kept |
| CollectedMavenInfo.SetSubsystem | src/main/java/collectors/models/maven/CollectedMavenInfoObject.java:76-78 | the subsystem is replaced and all other fields are kept |
| CollectedMavenInfo.AddModuleDependencies | src/main/java/collectors/models/maven/CollectedMavenInfoObject.java:33-38 | a null map becomes the map holding just the node; an existing map gains or overwrites the node's entry and keeps every other entry; nothing else changes |
| CollectedMavenInfo.AddModuleDependenciesOverwrites | src/main/java/collectors/models/maven/CollectedMavenInfoObject.java:33-38 | a second put for the same node replaces the first |
| CollectedMavenInfo.AddModuleDependenciesCommute | src/main/java/collectors/models/maven/CollectedMavenInfoObject.java:33-38 | puts for different nodes can be made in either order |

## Left out

- Parsing: building the class list from a source directory with QDox is not modelled. The classes arrive already parsed, and an annotation's type is reduced to its simple name.
- Logging: the `log.info` and `log.error` calls have no effect on the result and are left out.
- Unknown `value` shapes: a `value` attribute of an unexpected type is `Other`, and it contributes no path, as in the code. Its `toString` in the error log is not modelled.
- Trimming: `String.trim` is modelled on characters, removing those at or below U+0020 from both ends. Nothing in the reader depends on surrogate pairs or normalisation.
- Result type: the reader's result is a sequence of `PathMethod` values. The Java `Pair<String, String>` carries the method's name, which is `HttpTables.Name`.
- Reader interface: the `APIReader` interface is not part of this model. It declares `Pair<String, HttpMethods>`, and `util.HttpMethods` is not part of this model either.
- Superclass: the `InfoObject` superclass and the project name `CollectedMavenInfoObject` passes to it are not part of this model.
- Default service name: `ConsumesAPI.DEFAULT_SERVICE` is not part of this model. It is a parameter of `CollectedApiInfo.New`.
- Getters: each getter returns its field, and the fields of the datatypes stand for them.
- Nulls inside collections: a null element of a list-valued `value` or `method` attribute makes `path.replace` (SPRINGReader.java:236) or `meth.toString()` (SPRINGReader.java:211) throw, which aborts the whole extraction. The attribute lists hold strings only, so that exception is not modelled.
- Null collection arguments: `addConsumeDescriptionTriples(null)` first sets a null `consume` to an empty list and then throws (CollectedAPIInfoObject.java:67-70). `CollectedApiInfo.AddConsumeAll` takes a sequence, which cannot be null, so that path is not modelled.
- Maps: Java `HashMap` allows a null key and null edge lists. The model's map is keyed by non-null strings with non-null edge lists.
- Other parts: the Maven mojo, the JAX-RS reader and the other collectors are not part of this model.
- Concurrency and aliasing: the Java list and map objects are mutable and shared by reference. The model treats every update as producing a new value, so a caller that keeps a reference to a list handed to a setter and mutates it later is not modelled.

=== FILE: annotations.dfy ===
/**
 Resolution of one mapping annotation (`getMapping`): its `value`
 attribute gives the paths, its `method` attribute or its shorthand name
 gives the HTTP methods, and every path is paired with every method.
 */
module Annotations {
  import opened Wrappers
  import opened JavaStrings
  import opened HttpTables
  import opened Seqs

  /** The parsed value of one annotation attribute. */
  datatype Attr = Absent | Str(s: string) | StrList(items: seq<string>) | Other

  /** One annotation occurrence: its simple type name and its two attributes. */
  datatype Annotation = Annotation(name: string, value: Attr, methodAttr: Attr)

  /** A (path, method) pair; `None` is the unresolved method the merge step defaults. */
  datatype PathMethod = PathMethod(path: string, httpMethod: Option<HttpMethod>)

  /**
   The paths of a `value` attribute before quote stripping: a single string is
   trimmed, list elements are taken as they are, an absent value is the empty
   path and any other shape gives no path at all.
   */
  function RawPaths(value: Attr): seq<string> {
    match value
    case Str(s) => [Trim(s)]
    case StrList(items) => items
    case Absent => [""]
    case Other => []
  }

  /** The method one token names: none when the token is not in the table. */
  function TokenMethod(t: string): seq<HttpMethod> {
    match LookupToken(t)
    case Some(m) => [m]
    case None => []
  }

  /** The methods named by a list of tokens, in order; unknown tokens are dropped. */
  function TokensToMethods(ts: seq<string>): seq<HttpMethod> {
    FlatMap(ts, TokenMethod)
  }

  /** A method is among the resolved ones exactly when its token is among the tokens. */
  lemma {:induction false} TokensToMethodsMembers(ts: seq<string>, m: HttpMethod)
    ensures m in TokensToMethods(ts) <==> Token(m) in ts
  {
    if ts != [] {
      FlatMapCons(ts, TokenMethod);
      TokensToMethodsMembers(ts[1..], m);
      assert Token(m) in ts <==> Token(m) == ts[0] || Token(m) in ts[1..];
      LookupTokenSound(ts[0]);
      match LookupToken(ts[0])
      case Some(m') =>
        if Token(m) == ts[0] {
          TokenInjective(m, m');
        }
      case None =>
        TokenInTable(m);
    }
  }

  /** Tokens are resolved one by one: resolution distributes over concatenation. */
  lemma TokensToMethodsAppend(a: seq<string>, b: seq<string>)
    ensures TokensToMethods(a + b) == TokensToMethods(a) + TokensToMethods(b)
  {
    FlatMapAppend(a, b, TokenMethod);
  }

  /** A single token resolves to its method, or to nothing when unrecognised. */
  lemma TokensToMethodsSingle(t: string)
    ensures t !in MethodTokens ==> TokensToMethods([t]) == []
    ensures forall m :: t == Token(m) ==> TokensToMethods([t]) == [m]
  {
    FlatMapSingle(t, TokenMethod);
    LookupTokenSound(t);
    forall m | t == Token(m) ensures TokensToMethods([t]) == [m] {
      LookupTokenRoundTrip(m);
    }
  }

  /** A token given twice yields its method twice. */
  lemma TokensKeepDuplicates(m: HttpMethod)
    ensures TokensToMethods([Token(m), Token(m)]) == [m, m]
  {
    TokensToMethodsSingle(Token(m));
    TokensToMethodsAppend([Token(m)], [Token(m)]);
    assert [Token(m)] + [Token(m)] == [Token(m), Token(m)];
  }

  /**
   The methods of one annotation. For `RequestMapping` they come from its
   `method` attribute, and `None` when that attribute is neither a string nor
   a list; for any other name they are the one method its shorthand fixes, or
   none.
   */
  function ResolveMethods(a: Annotation): Option<seq<HttpMethod>> {
    if a.name == RequestMappingName then
      match a.methodAttr
      case StrList(ts) => Some(TokensToMethods(ts))
      case Str(t) =>
        (match LookupToken(t)
         case Some(m) => Some([m])
         case None => Some([]))
      case _ => None
    else
      match ShorthandMethod(a.name)
      case Some(m) => Some([m])
      case None => Some([])
  }

  /**
   For `RequestMapping` the methods are `None` unless the `method` attribute
   is a string or a list, and a single string resolves like a one-element
   list; any other name resolves to at most the one method its shorthand fixes.
   */
  lemma ResolveMethodsSpec(a: Annotation)
    ensures a.name == RequestMappingName ==>
              (ResolveMethods(a).None? <==> !a.methodAttr.Str? && !a.methodAttr.StrList?)
    ensures a.name == RequestMappingName && a.methodAttr.StrList? ==>
              ResolveMethods(a) == Some(TokensToMethods(a.methodAttr.items))
    ensures a.name == RequestMappingName && a.methodAttr.Str? ==>
              ResolveMethods(a) == Some(TokensToMethods([a.methodAttr.s]))
    ensures a.name != RequestMappingName ==> ResolveMethods(a).Some? && |ResolveMethods(a).value| <= 1
    ensures a.name != RequestMappingName ==>
              forall m :: m in ResolveMethods(a).value <==> ShorthandMethod(a.name) == Some(m)
  {
    if a.name == RequestMappingName && a.methodAttr.Str? {
      TokensToMethodsSingle(a.methodAttr.s);
      LookupTokenSound(a.methodAttr.s);
      if LookupToken(a.methodAttr.s).Some? {
        LookupTokenRoundTrip(LookupToken(a.methodAttr.s).value);
      }
    }
  }

  /** One pair per method, all on the same path, in method order. */
  function PairsFor(path: string, ms: seq<HttpMethod>): seq<PathMethod> {
    if ms == [] then [] else [PathMethod(path, Some(ms[0]))] + PairsFor(path, ms[1..])
  }

  lemma {:induction false} PairsForSpec(path: string, ms: seq<HttpMethod>)
    ensures |PairsFor(path, ms)| == |ms|
    ensures forall j :: 0 <= j < |ms| ==> PairsFor(path, ms)[j] == PathMethod(path, Some(ms[j]))
  {
    if ms != [] {
      PairsForSpec(path, ms[1..]);
    }
  }

  /** Whether resolution produced at least one concrete method. */
  predicate HasMethods(methods: Option<seq<HttpMethod>>) {
    methods.Some? && methods.value != []
  }

  /** The pairs of one path: quotes removed, then one pair per method or a single unresolved pair. */
  function ExpandPath(path: string, methods: Option<seq<HttpMethod>>): seq<PathMethod> {
    var p := RemoveQuotes(path);
    if HasMethods(methods) then PairsFor(p, methods.value) else [PathMethod(p, None)]
  }

  /** The pairs of all paths, path by path. */
  function Expand(paths: seq<string>, methods: Option<seq<HttpMethod>>): seq<PathMethod> {
    FlatMap(paths, p => ExpandPath(p, methods))
  }

  /** Expansion works path by path: it distributes over concatenation of the paths. */
  lemma ExpandAppend(a: seq<string>, b: seq<string>, methods: Option<seq<HttpMethod>>)
    ensures Expand(a + b, methods) == Expand(a, methods) + Expand(b, methods)
  {
    FlatMapAppend(a, b, p => ExpandPath(p, methods));
  }

  lemma ExpandCons(paths: seq<string>, methods: Option<seq<HttpMethod>>)
    requires paths != []
    ensures Expand(paths, methods) == ExpandPath(paths[0], methods) + Expand(paths[1..], methods)
  {
    FlatMapCons(paths, p => ExpandPath(p, methods));
  }

  /** Every emitted pair is quote-free, and carries one of the resolved methods when there are any. */
  lemma {:induction false} ExpandMember(paths: seq<string>, methods: Option<seq<HttpMethod>>, q: PathMethod)
    requires q in Expand(paths, methods)
    ensures '"' !in q.path
    ensures HasMethods(methods) ==> q.httpMethod.Some? && q.httpMethod.value in methods.value
    ensures !HasMethods(methods) ==> q.httpMethod.None?
  {
    ExpandCons(paths, methods);
    if HasMethods(methods) {
      PairsForSpec(RemoveQuotes(paths[0]), methods.value);
    }
    if q !in ExpandPath(paths[0], methods) {
      ExpandMember(paths[1..], methods, q);
    } else if HasMethods(methods) {
      var r := PairsFor(RemoveQuotes(paths[0]), methods.value);
      var j :| 0 <= j < |r| && r[j] == q;
    }
  }

  /** Without a resolved method each path gives exactly one unresolved pair. */
  lemma {:induction false} ExpandUnresolved(paths: seq<string>, methods: Option<seq<HttpMethod>>)
    requires !HasMethods(methods)
    ensures |Expand(paths, methods)| == |paths|
    ensures forall i :: 0 <= i < |paths| ==> Expand(paths, methods)[i] == PathMethod(RemoveQuotes(paths[i]), None)
  {
    if paths != [] {
      ExpandCons(paths, methods);
      ExpandUnresolved(paths[1..], methods);
    }
  }

  /** With k >= 1 methods every path gives exactly k pairs. */
  lemma {:induction false} ExpandLength(paths: seq<string>, ms: seq<HttpMethod>)
    requires ms != []
    ensures |Expand(paths, Some(ms))| == |paths| * |ms|
  {
    if paths != [] {
      ExpandCons(paths, Some(ms));
      ExpandLength(paths[1..], ms);
      PairsForSpec(RemoveQuotes(paths[0]), ms);
      assert |paths| * |ms| == |ms| + (|paths| - 1) * |ms|;
    }
  }

  /** `getMapping`: every path of the annotation paired with every resolved method. */
  function Resolve(a: Annotation): seq<PathMethod> {
    Expand(RawPaths(a.value), ResolveMethods(a))
  }

  /** No resolved path contains a double quote. */
  lemma ResolveNoQuotes(a: Annotation, q: PathMethod)
    requires q in Resolve(a)
    ensures '"' !in q.path
  {
    ExpandMember(RawPaths(a.value), ResolveMethods(a), q);
  }

  /** A value of any shape other than string or list contributes no pair. */
  lemma ResolveOtherValue(a: Annotation)
    requires a.value.Other?
    ensures Resolve(a) == []
  {
  }

  /** Each raw path gives as many pairs as there are resolved methods, or one when there are none. */
  lemma ResolveCount(a: Annotation)
    ensures |Resolve(a)| == |RawPaths(a.value)| * MethodCount(ResolveMethods(a))
  {
    var ms := ResolveMethods(a);
    if HasMethods(ms) {
      ExpandLength(RawPaths(a.value), ms.value);
    } else {
      ExpandUnresolved(RawPaths(a.value), ms);
    }
  }

  /** How many pairs one path yields: one per resolved method, or a single unresolved one. */
  function MethodCount(methods: Option<seq<HttpMethod>>): nat {
    if HasMethods(methods) then |methods.value| else 1
  }

  /**
   One path on its own expands to that path's pairs: the j-th carries the
   j-th resolved method, duplicates and order kept, or there is a single
   unresolved pair when no method resolved.
   */
  lemma ExpandSingle(path: string, methods: Option<seq<HttpMethod>>)
    ensures Expand([path], methods) == ExpandPath(path, methods)
    ensures |ExpandPath(path, methods)| == MethodCount(methods)
    ensures forall q :: q in ExpandPath(path, methods) ==> q.path == RemoveQuotes(path)
    ensures HasMethods(methods) ==>
              forall j :: 0 <= j < |methods.value| ==>
                ExpandPath(path, methods)[j] == PathMethod(RemoveQuotes(path), Some(methods.value[j]))
    ensures !HasMethods(methods) ==> ExpandPath(path, methods) == [PathMethod(RemoveQuotes(path), None)]
  {
    ExpandCons([path], methods);
    assert [path][1..] == [];
    if HasMethods(methods) {
      PairsForSpec(RemoveQuotes(path), methods.value);
    }
    forall q | q in ExpandPath(path, methods) ensures q.path == RemoveQuotes(path) {
      ExpandPathMember(path, methods, q);
    }
  }

  /** An absent value is exactly one path, the empty one. */
  lemma ResolveAbsentValue(a: Annotation)
    requires a.value.Absent?
    ensures |Resolve(a)| == MethodCount(ResolveMethods(a))
    ensures forall q :: q in Resolve(a) ==> q.path == ""
  {
    var ms := ResolveMethods(a);
    assert Resolve(a) == Expand([""], ms);
    ExpandSingle("", ms);
    assert RemoveQuotes("") == "";
  }

  /** A single `String` value is exactly one path: the string trimmed, then with its quotes removed. */
  lemma ResolveStringValue(a: Annotation)
    requires a.value.Str?
    ensures |Resolve(a)| == MethodCount(ResolveMethods(a))
    ensures forall q :: q in Resolve(a) ==> q.path == RemoveQuotes(Trim(a.value.s))
  {
    var ms := ResolveMethods(a);
    var t := Trim(a.value.s);
    assert Resolve(a) == Expand([t], ms);
    ExpandSingle(t, ms);
  }

  /**
   A list value is its elements, untrimmed, each with its quotes removed:
   one unresolved pair per element in order, or every element paired with
   every resolved method.
   */
  lemma ResolveListValue(a: Annotation, p: string, m: HttpMethod)
    requires a.value.StrList?
    ensures |Resolve(a)| == |a.value.items| * MethodCount(ResolveMethods(a))
    ensures !HasMethods(ResolveMethods(a)) ==>
              forall i :: 0 <= i < |a.value.items| ==> Resolve(a)[i] == PathMethod(RemoveQuotes(a.value.items[i]), None)
    ensures HasMethods(ResolveMethods(a)) ==>
              (PathMethod(p, Some(m)) in Resolve(a) <==> p in CleanPaths(a.value.items) && m in ResolveMethods(a).value)
  {
    ResolveCount(a);
    var ms := ResolveMethods(a);
    if HasMethods(ms) {
      ExpandPairs(a.value.items, ms.value, p, m);
    } else {
      ExpandUnresolved(a.value.items, ms);
    }
  }

  /** Elements of a list value are not trimmed: a padded path keeps its blanks. */
  lemma ResolveListNotTrimmed()
    ensures Resolve(Annotation("GetMapping", StrList([" x "]), Absent)) == [PathMethod(" x ", Some(GET))]
  {
    var a := Annotation("GetMapping", StrList([" x "]), Absent);
    ShorthandMethodNamed(a.name);
    ResolveShorthand(a, GET);
    assert RawPaths(a.value) == [" x "];
    assert RemoveQuotes(" x ") == " x ";
  }

  lemma ExpandPathMember(path: string, methods: Option<seq<HttpMethod>>, q: PathMethod)
    requires q in ExpandPath(path, methods)
    ensures q.path == RemoveQuotes(path)
  {
    if HasMethods(methods) {
      PairsForSpec(RemoveQuotes(path), methods.value);
      var r := PairsFor(RemoveQuotes(path), methods.value);
      var j :| 0 <= j < |r| && r[j] == q;
    }
  }

  /** The five named shorthands fix the method and ignore the `method` attribute. */
  lemma ResolveShorthand(a: Annotation, m: HttpMethod)
    requires a.name in ["GetMapping", "PutMapping", "PostMapping", "DeleteMapping", "PatchMapping"]
    requires ShorthandMethod(a.name) == Some(m)
    ensures |Resolve(a)| == |RawPaths(a.value)|
    ensures forall i :: 0 <= i < |RawPaths(a.value)| ==>
              Resolve(a)[i] == PathMethod(RemoveQuotes(RawPaths(a.value)[i]), Some(m))
    ensures forall x :: Resolve(a.(methodAttr := x)) == Resolve(a)
  {
    assert a.name != RequestMappingName;
    assert ResolveMethods(a) == Some([m]);
    ShorthandSingle(RawPaths(a.value), m);
    forall x ensures Resolve(a.(methodAttr := x)) == Resolve(a) {
      assert ResolveMethods(a.(methodAttr := x)) == ResolveMethods(a);
    }
  }

  /** With one method, each path gives one pair carrying it. */
  lemma {:induction false} ShorthandSingle(paths: seq<string>, m: HttpMethod)
    ensures |Expand(paths, Some([m]))| == |paths|
    ensures forall i :: 0 <= i < |paths| ==> Expand(paths, Some([m]))[i] == PathMethod(RemoveQuotes(paths[i]), Some(m))
  {
    if paths != [] {
      ExpandCons(paths, Some([m]));
      ShorthandSingle(paths[1..], m);
      PairsForSpec(RemoveQuotes(paths[0]), [m]);
      assert ExpandPath(paths[0], Some([m])) == [PathMethod(RemoveQuotes(paths[0]), Some(m))];
    }
  }

  /**
   A `RequestMapping` whose `method` attribute is neither a string nor a list,
   or names no recognised token, gives one unresolved pair per path.
   */
  lemma ResolveUnresolved(a: Annotation)
    requires a.name == RequestMappingName
    requires !HasMethods(ResolveMethods(a))
    ensures |Resolve(a)| == |RawPaths(a.value)|
    ensures forall i :: 0 <= i < |RawPaths(a.value)| ==>
              Resolve(a)[i] == PathMethod(RemoveQuotes(RawPaths(a.value)[i]), None)
  {
    ExpandUnresolved(RawPaths(a.value), ResolveMethods(a));
  }

  /**
   A `RequestMapping` with a list of method tokens gives, for each path, one
   pair per recognised token: a path p and method m are paired exactly when p
   is one of the cleaned paths and the token of m is in the list.
   */
  lemma ResolveRequestMapping(a: Annotation, ts: seq<string>, p: string, m: HttpMethod)
    requires a.name == RequestMappingName && a.methodAttr == StrList(ts)
    requires TokensToMethods(ts) != []
    ensures |Resolve(a)| == |RawPaths(a.value)| * |TokensToMethods(ts)|
    ensures PathMethod(p, Some(m)) in Resolve(a) <==>
              p in CleanPaths(RawPaths(a.value)) && Token(m) in ts
  {
    ExpandLength(RawPaths(a.value), TokensToMethods(ts));
    TokensToMethodsMembers(ts, m);
    ExpandPairs(RawPaths(a.value), TokensToMethods(ts), p, m);
  }

  /** The paths with their quotes removed, in order. */
  function CleanPaths(paths: seq<string>): (r: seq<string>)
    ensures |r| == |paths|
  {
    if paths == [] then [] else [RemoveQuotes(paths[0])] + CleanPaths(paths[1..])
  }

  /** With resolved methods, a pair is emitted exactly for a cleaned path and a resolved method. */
  lemma {:induction false} ExpandPairs(paths: seq<string>, ms: seq<HttpMethod>, p: string, m: HttpMethod)
    requires ms != []
    ensures PathMethod(p, Some(m)) in Expand(paths, Some(ms)) <==> p in CleanPaths(paths) && m in ms
  {
    if paths != [] {
      ExpandCons(paths, Some(ms));
      ExpandPairs(paths[1..], ms, p, m);
      var head := PairsFor(RemoveQuotes(paths[0]), ms);
      PairsForSpec(RemoveQuotes(paths[0]), ms);
      if p == RemoveQuotes(paths[0]) && m in ms {
        var j :| 0 <= j < |ms| && ms[j] == m;
        assert head[j] == PathMethod(p, Some(m));
      }
    }
  }
}

=== FILE: collected_api.dfy ===
/**
 `CollectedAPIInfoObject`: the API a service provides and the calls it
 consumes. Java references that may be null are `Option`s; `P` stands for
 the provided-API description and `D` for a consume description, neither of
 which this model looks into.
 */
module CollectedApiInfo {
  import opened Wrappers

  datatype CollectedApi<P, D> = CollectedApi(
    serviceName: Option<string>,
    serviceTag: Option<string>,
    provide: Option<P>,
    consume: Option<seq<D>>)

  /**
   The constructor keeps a non-null name and replaces a null one by the
   default service name, which the caller supplies; all else starts null.
   */
  function New<P, D>(name: Option<string>, defaultService: string): (r: CollectedApi<P, D>)
    ensures name.Some? ==> r.serviceName == name
    ensures name.None? ==> r.serviceName == Some(defaultService)
    ensures r.serviceTag.None? && r.provide.None? && r.consume.None?
  {
    var n := if name.Some? then name.value else defaultService;
    CollectedApi(Some(n), None, None, None)
  }

  /** Whether two objects agree on everything except the consumed calls. */
  ghost predicate SameExceptConsume<P, D>(a: CollectedApi<P, D>, b: CollectedApi<P, D>) {
    a.serviceName == b.serviceName && a.serviceTag == b.serviceTag && a.provide == b.provide
  }

  function SetServiceName<P, D>(o: CollectedApi<P, D>, name: Option<string>): (r: CollectedApi<P, D>)
    ensures r.serviceName == name
    ensures r.serviceTag == o.serviceTag && r.provide == o.provide && r.consume == o.consume
  {
    o.(serviceName := name)
  }

  function SetServiceTag<P, D>(o: CollectedApi<P, D>, tag: Option<string>): (r: CollectedApi<P, D>)
    ensures r.serviceTag == tag
    ensures r.serviceName == o.serviceName && r.provide == o.provide && r.consume == o.consume
  {
    o.(serviceTag := tag)
  }

  function SetProvide<P, D>(o: CollectedApi<P, D>, provide: Option<P>): (r: CollectedApi<P, D>)
    ensures r.provide == provide
    ensures r.serviceName == o.serviceName && r.serviceTag == o.serviceTag && r.consume == o.consume
  {
    o.(provide := provide)
  }

  function SetConsume<P, D>(o: CollectedApi<P, D>, consume: Option<seq<D>>): (r: CollectedApi<P, D>)
    ensures r.consume == consume
    ensures SameExceptConsume(r, o)
  {
    o.(consume := consume)
  }

  /**
   `addConsumeDescriptionTriple`: a null list becomes `[triple]`, an existing
   list gets `triple` at its end; nothing else changes.
   */
  function AddConsume<P, D>(o: CollectedApi<P, D>, triple: D): (r: CollectedApi<P, D>)
    ensures SameExceptConsume(r, o)
    ensures r.consume.Some?
    ensures o.consume.None? ==> r.consume.value == [triple]
    ensures o.consume.Some? ==>
              |r.consume.value| == |o.consume.value| + 1 &&
              r.consume.value[..|o.consume.value|] == o.consume.value &&
              r.consume.value[|o.consume.value|] == triple
  {
    var existing := o.consume.GetOr([]);
    o.(consume := Some(existing + [triple]))
  }

  /**
   `addConsumeDescriptionTriples`: all triples are appended in collection
   order; a null list is first made empty, so even an empty collection leaves
   a non-null list behind.
   */
  function AddConsumeAll<P, D>(o: CollectedApi<P, D>, triples: seq<D>): (r: CollectedApi<P, D>)
    ensures SameExceptConsume(r, o)
    ensures r.consume.Some?
    ensures o.consume.None? ==> r.consume.value == triples
    ensures o.consume.Some? ==>
              |r.consume.value| == |o.consume.value| + |triples| &&
              r.consume.value[..|o.consume.value|] == o.consume.value &&
              r.consume.value[|o.consume.value|..] == triples
  {
    var existing := o.consume.GetOr([]);
    o.(consume := Some(existing + triples))
  }

  /** Adds the triples one at a time, in order. */
  function AddConsumeEach<P, D>(o: CollectedApi<P, D>, triples: seq<D>): CollectedApi<P, D>
    decreases |triples|
  {
    if triples == [] then o else AddConsumeEach(AddConsume(o, triples[0]), triples[1..])
  }

  /**
   Adding a collection is adding its triples one by one, except that an empty
   collection still turns a null list into an empty one.
   */
  lemma {:induction false} AddConsumeAllIsEach<P, D>(o: CollectedApi<P, D>, triples: seq<D>)
    requires o.consume.Some? || triples != []
    ensures AddConsumeAll(o, triples) == AddConsumeEach(o, triples)
    decreases |triples|
  {
    if triples == [] {
      assert o.consume.value + triples == o.consume.value;
    } else {
      var existing := o.consume.GetOr([]);
      var o' := AddConsume(o, triples[0]);
      assert o' == o.(consume := Some(existing + [triples[0]]));
      assert existing + [triples[0]] + triples[1..] == existing + triples;
      assert AddConsumeEach(o, triples) == AddConsumeEach(o', triples[1..]);
      assert AddConsumeAll(o, triples) == o.(consume := Some(existing + triples));
      if triples[1..] == [] {
        assert [triples[0]] == triples;
        assert AddConsumeEach(o', triples[1..]) == o';
      } else {
        AddConsumeAllIsEach(o', triples[1..]);
        assert AddConsumeAll(o', triples[1..]) == o.(consume := Some(existing + triples));
      }
    }
  }

  /** On a null list, adding an empty collection differs from adding nothing. */
  lemma AddConsumeAllEmpty<P, D>(o: CollectedApi<P, D>)
    requires o.consume.None?
    ensures AddConsumeAll(o, []).consume == Some([])
    ensures AddConsumeEach(o, []).consume.None?
  {
  }
}

=== FILE: collected_maven.dfy ===
/**
 `CollectedMavenInfoObject`: the project's tag, system and subsystem, its
 module dependency graph, its modules and its components. Java references
 that may be null are `Option`s; `M` stands for the module type and `C` for
 the component type, which this model does not look into.
 */
module CollectedMavenInfo {
  import opened Wrappers

  datatype CollectedMaven<M, C> = CollectedMaven(
    tag: Option<string>,
    system: Option<string>,
    subsystem: Option<string>,
    moduleDependencies: Option<map<string, seq<string>>>,
    modules: Option<seq<M>>,
    components: Option<seq<C>>)

  /** The constructor stores tag, system and subsystem as given; the collections start null. */
  function New<M, C>(tag: Option<string>, system: Option<string>, subsystem: Option<string>): (r: CollectedMaven<M, C>)
    ensures r.tag == tag && r.system == system && r.subsystem == subsystem
    ensures r.moduleDependencies.None? && r.modules.None? && r.components.None?
  {
    CollectedMaven(tag, system, subsystem, None, None, None)
  }

  /** Whether two objects agree on everything except the dependency map. */
  ghost predicate SameExceptDependencies<M, C>(a: CollectedMaven<M, C>, b: CollectedMaven<M, C>) {
    && a.tag == b.tag && a.system == b.system && a.subsystem == b.subsystem
    && a.modules == b.modules && a.components == b.components
  }

  function SetModuleDependencies<M, C>(o: CollectedMaven<M, C>, deps: Option<map<string, seq<string>>>): (r: CollectedMaven<M, C>)
    ensures r.moduleDependencies == deps
    ensures SameExceptDependencies(r, o)
  {
    o.(moduleDependencies := deps)
  }

  function SetModules<M, C>(o: CollectedMaven<M, C>, modules: Option<seq<M>>): (r: CollectedMaven<M, C>)
    ensures r.modules == modules
    ensures r.tag == o.tag && r.system == o.system && r.subsystem == o.subsystem
    ensures r.moduleDependencies == o.moduleDependencies && r.components == o.components
  {
    o.(modules := modules)
  }

  function SetComponents<M, C>(o: CollectedMaven<M, C>, components: Option<seq<C>>): (r: CollectedMaven<M, C>)
    ensures r.components == components
    ensures r.tag == o.tag && r.system == o.system && r.subsystem == o.subsystem
    ensures r.moduleDependencies == o.moduleDependencies && r.modules == o.modules
  {
    o.(components := components)
  }

  function SetTag<M, C>(o: CollectedMaven<M, C>, tag: Option<string>): (r: CollectedMaven<M, C>)
    ensures r.tag == tag
    ensures r.system == o.system && r.subsystem == o.subsystem
    ensures r.moduleDependencies == o.moduleDependencies && r.modules == o.modules && r.components == o.components
  {
    o.(tag := tag)
  }

  function SetSystem<M, C>(o: CollectedMaven<M, C>, system: Option<string>): (r: CollectedMaven<M, C>)
    ensures r.system == system
    ensures r.tag == o.tag && r.subsystem == o.subsystem
    ensures r.moduleDependencies == o.moduleDependencies && r.modules == o.modules && r.components == o.components
  {
    o.(system := system)
  }

  function SetSubsystem<M, C>(o: CollectedMaven<M, C>, subsystem: Option<string>): (r: CollectedMaven<M, C>)
    ensures r.subsystem == subsystem
    ensures r.tag == o.tag && r.system == o.system
    ensures r.moduleDependencies == o.moduleDependencies && r.modules == o.modules && r.components == o.components
  {
    o.(subsystem := subsystem)
  }

  /**
   `addModuleDependencies`: a null map becomes a map with just `node`; an
   existing map gets `node -> edges`, replacing any earlier entry for `node`
   and keeping every other entry; nothing else changes.
   */
  function AddModuleDependencies<M, C>(o: CollectedMaven<M, C>, node: string, edges: seq<string>): (r: CollectedMaven<M, C>)
    ensures SameExceptDependencies(r, o)
    ensures r.moduleDependencies.Some?
    ensures node in r.moduleDependencies.value && r.moduleDependencies.value[node] == edges
    ensures o.moduleDependencies.None? ==> r.moduleDependencies.value.Keys == {node}
    ensures o.moduleDependencies.Some? ==> r.moduleDependencies.value.Keys == o.moduleDependencies.value.Keys + {node}
    ensures o.moduleDependencies.Some? ==>
              forall k :: k in o.moduleDependencies.value && k != node ==>
                r.moduleDependencies.value[k] == o.moduleDependencies.value[k]
  {
    var existing := o.moduleDependencies.GetOr(map[]);
    o.(moduleDependencies := Some(existing[node := edges]))
  }

  /** A second put for the same node overwrites the first. */
  lemma AddModuleDependenciesOverwrites<M, C>(o: CollectedMaven<M, C>, node: string, e1: seq<string>, e2: seq<string>)
    ensures AddModuleDependencies(AddModuleDependencies(o, node, e1), node, e2) == AddModuleDependencies(o, node, e2)
  {
    var m := o.moduleDependencies.GetOr(map[]);
    assert m[node := e1][node := e2] == m[node := e2];
  }

  /** Puts for different nodes commute. */
  lemma AddModuleDependenciesCommute<M, C>(o: CollectedMaven<M, C>, n1: string, e1: seq<string>, n2: string, e2: seq<string>)
    requires n1 != n2
    ensures AddModuleDependencies(AddModuleDependencies(o, n1, e1), n2, e2)
         == AddModuleDependencies(AddModuleDependencies(o, n2, e2), n1, e1)
  {
    var m := o.moduleDependencies.GetOr(map[]);
    assert m[n1 := e1][n2 := e2] == m[n2 := e2][n1 := e1];
  }
}

=== FILE: http_tables.dfy ===
/**
 The three constant tables of the Spring reader: the HTTP methods in their
 fixed order, the `RequestMethod.X` tokens at the same indices, the
 per-method shorthand annotation names at the same indices, and the
 annotation names that mark a class as a controller.
 */
module HttpTables {
  import opened Wrappers
  import opened JavaStrings

  datatype HttpMethod = GET | PUT | POST | DELETE | HEAD | OPTIONS | PATCH

  /** The HTTP methods in the order every "all methods" expansion uses. */
  const AllMethods: seq<HttpMethod> := [GET, PUT, POST, DELETE, HEAD, OPTIONS, PATCH]

  /** The method name as the reader emits it. */
  function Name(m: HttpMethod): string {
    match m
    case GET => "GET"
    case PUT => "PUT"
    case POST => "POST"
    case DELETE => "DELETE"
    case HEAD => "HEAD"
    case OPTIONS => "OPTIONS"
    case PATCH => "PATCH"
  }

  /** The token a `method = RequestMethod.X` attribute carries for `m`. */
  function Token(m: HttpMethod): string {
    "RequestMethod." + Name(m)
  }

  /** The recognised method tokens, index by index with `AllMethods`. */
  const MethodTokens: seq<string> := [
    "RequestMethod.GET", "RequestMethod.PUT", "RequestMethod.POST", "RequestMethod.DELETE",
    "RequestMethod.HEAD", "RequestMethod.OPTIONS", "RequestMethod.PATCH"]

  /**
   The shorthand mapping annotations, index by index with `AllMethods`. The
   HEAD slot holds a null entry and the OPTIONS slot an empty name.
   */
  const ShorthandNames: seq<Option<string>> := [
    Some("GetMapping"), Some("PutMapping"), Some("PostMapping"), Some("DeleteMapping"),
    None, Some(""), Some("PatchMapping")]

  const RequestMappingName: string := "RequestMapping"

  /** Annotations that make a class a controller. */
  const ControllerNames: seq<string> := ["Controller", "RestController", "Component", "Service"]

  /** Every method occurs in `AllMethods`, exactly once. */
  lemma AllMethodsEnumerates(m: HttpMethod)
    ensures m in AllMethods
    ensures |AllMethods| == 7
    ensures forall i, j :: 0 <= i < j < |AllMethods| ==> AllMethods[i] != AllMethods[j]
  {
  }

  /** The token table is the token of the method at the same index. */
  lemma TokensMatchMethods()
    ensures |MethodTokens| == |AllMethods|
    ensures forall i :: 0 <= i < |MethodTokens| ==> MethodTokens[i] == Token(AllMethods[i])
  {
  }

  /**
   Looks a `RequestMethod.X` token up in the token table; a token outside the
   table resolves to nothing.
   */
  function LookupToken(t: string): Option<HttpMethod> {
    var i := IndexOf(MethodTokens, t);
    if i == -1 then None else Some(AllMethods[i])
  }

  /** Only a token of the table resolves, and it resolves to the method it names. */
  lemma LookupTokenSound(t: string)
    ensures LookupToken(t).Some? <==> t in MethodTokens
    ensures LookupToken(t).Some? ==> t == Token(LookupToken(t).value)
  {
    TokensMatchMethods();
  }

  /** Distinct methods have distinct names: length and first letter tell them apart. */
  lemma NameInjective(a: HttpMethod, b: HttpMethod)
    requires Name(a) == Name(b)
    ensures a == b
  {
    assert |Name(a)| == |Name(b)| && Name(a)[0] == Name(b)[0];
  }

  lemma TokenInjective(a: HttpMethod, b: HttpMethod)
    requires Token(a) == Token(b)
    ensures a == b
  {
    var n := |"RequestMethod."|;
    assert Token(a)[n..] == Name(a);
    assert Token(b)[n..] == Name(b);
    NameInjective(a, b);
  }

  /** Every method's token is in the token table. */
  lemma TokenInTable(m: HttpMethod)
    ensures Token(m) in MethodTokens
  {
    TokensMatchMethods();
    AllMethodsEnumerates(m);
    var i :| 0 <= i < |AllMethods| && AllMethods[i] == m;
    assert MethodTokens[i] == Token(m);
  }

  /** Encoding a method as its token and looking it up gives the method back. */
  lemma LookupTokenRoundTrip(m: HttpMethod)
    ensures LookupToken(Token(m)) == Some(m)
  {
    TokenInTable(m);
    LookupTokenSound(Token(m));
    var r := LookupToken(Token(m));
    TokenInjective(r.value, m);
  }

  /**
   The method a shorthand annotation name fixes: the entry of `AllMethods` at
   the name's index in `ShorthandNames`, or nothing when the name is absent.
   */
  function ShorthandMethod(name: string): Option<HttpMethod> {
    var i := IndexOf(ShorthandNames, Some(name));
    if i == -1 then None else Some(AllMethods[i])
  }

  /**
   A name fixes a method exactly when it is in the shorthand table; HEAD is
   never fixed, and OPTIONS only by the empty name.
   */
  lemma ShorthandMethodTable(name: string)
    ensures ShorthandMethod(name).Some? <==> Some(name) in ShorthandNames
    ensures ShorthandMethod(name) != Some(HEAD)
    ensures ShorthandMethod(name) == Some(OPTIONS) <==> name == ""
  {
    var i := IndexOf(ShorthandNames, Some(name));
    if i != -1 {
      assert ShorthandNames[i] == Some(name);
      assert i != 4;
      assert AllMethods[i] == OPTIONS ==> i == 5;
    }
    if name == "" {
      ShorthandIndex(name);
    }
  }

  /** GetMapping, PutMapping, PostMapping, DeleteMapping and PatchMapping fix GET, PUT, POST, DELETE and PATCH. */
  lemma ShorthandMethodNamed(name: string)
    ensures name == "GetMapping" ==> ShorthandMethod(name) == Some(GET)
    ensures name == "PutMapping" ==> ShorthandMethod(name) == Some(PUT)
    ensures name == "PostMapping" ==> ShorthandMethod(name) == Some(POST)
    ensures name == "DeleteMapping" ==> ShorthandMethod(name) == Some(DELETE)
    ensures name == "PatchMapping" ==> ShorthandMethod(name) == Some(PATCH)
  {
    ShorthandIndex(name);
  }

  /** Where a name sits in `ShorthandNames`: its slot, or -1. */
  lemma ShorthandIndex(name: string)
    ensures IndexOf(ShorthandNames, Some(name)) ==
              if name == "GetMapping" then 0
              else if name == "PutMapping" then 1
              else if name == "PostMapping" then 2
              else if name == "DeleteMapping" then 3
              else if name == "" then 5
              else if name == "PatchMapping" then 6
              else -1
  {
    var i := IndexOf(ShorthandNames, Some(name));
    if i != -1 {
      assert ShorthandNames[i] == Some(name);
      assert i != 4;
    }
  }

  predicate IsControllerName(name: string) {
    name in ControllerNames
  }

  /** `RequestMapping` or one of the shorthand names (the empty name included). */
  predicate IsMappingName(name: string) {
    name == RequestMappingName || Some(name) in ShorthandNames
  }

  datatype Category = ControllerMarker | MappingDecl | Irrelevant

  /** The class-level test: a controller marker first, else a mapping. */
  function Categorize(name: string): (c: Category)
    ensures c == ControllerMarker <==> IsControllerName(name)
    ensures c == MappingDecl <==> IsMappingName(name)
    ensures c == Irrelevant <==> !IsControllerName(name) && !IsMappingName(name)
  {
    if IsControllerName(name) then ControllerMarker
    else if IsMappingName(name) then MappingDecl
    else Irrelevant
  }
}

=== FILE: java_strings.dfy ===
/**
 The few `java.lang.String` and `java.util.List` operations the reader relies on:
 `trim`, `replace("\"", "")`, `startsWith` and `indexOf`.
 */
module JavaStrings {

  /** `String.trim` removes every character whose code is at most U+0020. */
  predicate IsTrimmable(c: char) {
    c <= ' '
  }

  /** A string with nothing left for `trim` to remove at either end. */
  predicate IsTrimmed(s: string) {
    s == [] || (!IsTrimmable(s[0]) && !IsTrimmable(s[|s| - 1]))
  }

  /** Drops the leading trimmable characters: the result is a suffix of `s`. */
  function TrimStart(s: string): (r: string)
    ensures |r| <= |s| && r == s[|s| - |r|..]
    ensures forall k :: 0 <= k < |s| - |r| ==> IsTrimmable(s[k])
    ensures r == [] || !IsTrimmable(r[0])
  {
    if |s| > 0 && IsTrimmable(s[0]) then TrimStart(s[1..]) else s
  }

  /** Drops the trailing trimmable characters: the result is a prefix of `s`. */
  function TrimEnd(s: string): (r: string)
    ensures |r| <= |s| && r == s[..|r|]
    ensures forall k :: |r| <= k < |s| ==> IsTrimmable(s[k])
    ensures r == [] || !IsTrimmable(r[|r| - 1])
  {
    if |s| > 0 && IsTrimmable(s[|s| - 1]) then TrimEnd(s[..|s| - 1]) else s
  }

  /** `String.trim`: nothing trimmable is left at either end of the result. */
  function Trim(s: string): (r: string)
    ensures IsTrimmed(r)
    ensures |r| <= |s|
  {
    TrimEnd(TrimStart(s))
  }

  /**
   What `trim` removes: the result is the slice of `s` starting at some `i`,
   and only trimmable characters lie outside that slice.
   */
  lemma TrimIsSlice(s: string)
    ensures exists i :: 0 <= i <= |s| - |Trim(s)| && Trim(s) == s[i..][..|Trim(s)|]
              && (forall k :: 0 <= k < i ==> IsTrimmable(s[k]))
              && (forall k :: i + |Trim(s)| <= k < |s| ==> IsTrimmable(s[k]))
  {
    var t := TrimStart(s);
    var i := |s| - |t|;
    assert Trim(s) == s[i..][..|Trim(s)|];
  }

  lemma TrimStartKeeps(s: string)
    requires s == [] || !IsTrimmable(s[0])
    ensures TrimStart(s) == s
  {
  }

  lemma TrimEndKeeps(s: string)
    requires s == [] || !IsTrimmable(s[|s| - 1])
    ensures TrimEnd(s) == s
  {
  }

  /** A string `trim` has nothing to remove from is left as it is. */
  lemma TrimTrimmed(s: string)
    requires IsTrimmed(s)
    ensures Trim(s) == s
  {
    TrimStartKeeps(s);
    TrimEndKeeps(s);
  }

  /** `trim` is idempotent. */
  lemma TrimIdempotent(s: string)
    ensures Trim(Trim(s)) == Trim(s)
  {
    TrimTrimmed(Trim(s));
  }

  /** `replace("\"", "")`: every double-quote character is removed. */
  function RemoveQuotes(s: string): (r: string)
    ensures '"' !in r
    ensures '"' !in s ==> r == s
    ensures |r| == |s| - multiset(s)['"']
  {
    if s == [] then []
    else
      assert s == [s[0]] + s[1..];
      assert multiset(s) == multiset([s[0]]) + multiset(s[1..]);
      if s[0] == '"' then RemoveQuotes(s[1..])
      else [s[0]] + RemoveQuotes(s[1..])
  }

  /** Quote removal works piecewise, so it keeps every other character in order. */
  lemma {:induction false} RemoveQuotesAppend(a: string, b: string)
    ensures RemoveQuotes(a + b) == RemoveQuotes(a) + RemoveQuotes(b)
  {
    if a == [] {
      assert a + b == b;
    } else {
      assert (a + b)[0] == a[0];
      assert (a + b)[1..] == a[1..] + b;
      RemoveQuotesAppend(a[1..], b);
    }
  }

  /** `String.startsWith("/")`. */
  predicate StartsWithSlash(s: string) {
    |s| > 0 && s[0] == '/'
  }

  /**
   `List.indexOf`: the position of the first element equal to `x`, or -1 when
   there is none.
   */
  function IndexOf<T(==)>(s: seq<T>, x: T): (i: int)
    ensures -1 <= i < |s|
    ensures i == -1 <==> x !in s
    ensures 0 <= i ==> s[i] == x && x !in s[..i]
  {
    if s == [] then -1
    else if s[0] == x then 0
    else
      var j := IndexOf(s[1..], x);
      if j == -1 then -1
      else
        assert s[..j + 1] == [s[0]] + s[1..][..j];
        j + 1
  }
}

=== FILE: merge.dfy ===
/**
 The merge step of the Spring reader (`getMethodAnnotations`): the pairs of
 every method-level mapping annotation are combined with the class-level
 base mapping, and every unresolved method is defaulted.
 */
module Merge {
  import opened Wrappers
  import opened JavaStrings
  import opened HttpTables
  import opened Annotations
  import opened Slashes
  import opened Seqs

  /** Every pair carries a concrete method. */
  predicate AllResolved(ps: seq<PathMethod>) {
    forall i :: 0 <= i < |ps| ==> ps[i].httpMethod.Some?
  }

  /** The seven pairs of a path whose method is "any": one per method, in table order. */
  function AllMethodsAt(path: string): seq<PathMethod> {
    PairsFor(path, AllMethods)
  }

  /** Seven pairs on the same path, the i-th carrying the i-th method of the table. */
  lemma AllMethodsAtSpec(path: string)
    ensures |AllMethodsAt(path)| == 7
    ensures forall i :: 0 <= i < 7 ==> AllMethodsAt(path)[i] == PathMethod(path, Some(AllMethods[i]))
  {
    PairsForSpec(path, AllMethods);
  }

  /** "Any method" on a path yields every pair on that path with a concrete method, and nothing else. */
  lemma AllMethodsAtMember(path: string, q: PathMethod)
    ensures q in AllMethodsAt(path) <==> q.path == path && q.httpMethod.Some?
  {
    AllMethodsAtSpec(path);
    if q in AllMethodsAt(path) {
      var i :| 0 <= i < 7 && AllMethodsAt(path)[i] == q;
    }
    if q.path == path && q.httpMethod.Some? {
      AllMethodsEnumerates(q.httpMethod.value);
      var i :| 0 <= i < 7 && AllMethods[i] == q.httpMethod.value;
      assert AllMethodsAt(path)[i] == q;
    }
  }

  /** A concrete method-level method under a base: one joined pair per base entry. */
  function JoinEach(bases: seq<PathMethod>, path: string, m: HttpMethod): seq<PathMethod> {
    Map(bases, (b: PathMethod) => PathMethod(JoinPath(b.path, path), Some(m)))
  }

  lemma JoinEachSpec(bases: seq<PathMethod>, path: string, m: HttpMethod)
    ensures |JoinEach(bases, path, m)| == |bases|
    ensures forall i :: 0 <= i < |bases| ==>
              JoinEach(bases, path, m)[i] == PathMethod(JoinPath(bases[i].path, path), Some(m))
  {
    MapSpec(bases, (b: PathMethod) => PathMethod(JoinPath(b.path, path), Some(m)));
  }

  /** What one base entry contributes to an unresolved method-level pair. */
  function InheritOne(base: PathMethod, path: string): seq<PathMethod> {
    var joined := JoinPath(base.path, path);
    match base.httpMethod
    case Some(bm) => [PathMethod(joined, Some(bm))]
    case None => AllMethodsAt(joined)
  }

  /** An unresolved method-level method under a base: the base entries' contributions, in order. */
  function InheritEach(bases: seq<PathMethod>, path: string): seq<PathMethod> {
    FlatMap(bases, b => InheritOne(b, path))
  }

  /** The four branches for one method-level pair. */
  function MergePair(base: Option<seq<PathMethod>>, mp: PathMethod): seq<PathMethod> {
    if mp.httpMethod.Some? && base.Some? then JoinEach(base.value, mp.path, mp.httpMethod.value)
    else if mp.httpMethod.Some? then [mp]
    else if base.Some? then InheritEach(base.value, mp.path)
    else AllMethodsAt(StartWithoutSlash(mp.path))
  }

  /** All method-level pairs of one annotation, merged in order. */
  function MergePairs(base: Option<seq<PathMethod>>, mps: seq<PathMethod>): seq<PathMethod> {
    FlatMap(mps, mp => MergePair(base, mp))
  }

  /** One method-level annotation: the merge of its pairs if it is a mapping, else nothing. */
  function AnnotationEndpoints(a: Annotation, base: Option<seq<PathMethod>>): seq<PathMethod> {
    if IsMappingName(a.name) then MergePairs(base, Resolve(a)) else []
  }

  /** `getMethodAnnotations`: the merged pairs of every mapping annotation on one method. */
  function MethodEndpoints(anns: seq<Annotation>, base: Option<seq<PathMethod>>): seq<PathMethod> {
    FlatMap(anns, a => AnnotationEndpoints(a, base))
  }

  /**
   A concrete method-level method under a base gives one pair per base entry,
   in base order, with the joined path and the method-level method: the base
   entry's own method never shows.
   */
  lemma MergeConcreteWithBase(bases: seq<PathMethod>, mp: PathMethod, m: HttpMethod)
    requires mp.httpMethod == Some(m)
    ensures |MergePair(Some(bases), mp)| == |bases|
    ensures forall i :: 0 <= i < |bases| ==>
              MergePair(Some(bases), mp)[i] == PathMethod(JoinPath(bases[i].path, mp.path), Some(m))
  {
    JoinEachSpec(bases, mp.path, m);
  }

  /** A concrete method-level method under an empty (but present) base gives nothing. */
  lemma MergeConcreteEmptyBase(mp: PathMethod)
    requires mp.httpMethod.Some?
    ensures MergePair(Some([]), mp) == []
  {
  }

  /** A concrete method-level method without a base passes through untouched, path included. */
  lemma MergeConcreteNoBase(mp: PathMethod)
    requires mp.httpMethod.Some?
    ensures MergePair(None, mp) == [mp]
  {
  }

  /**
   An unresolved method without a base becomes seven pairs, one per method in
   table order, on the path with its leading slash removed.
   */
  lemma MergeUnresolvedNoBase(mp: PathMethod)
    requires mp.httpMethod.None?
    ensures |MergePair(None, mp)| == 7
    ensures forall i :: 0 <= i < 7 ==>
              MergePair(None, mp)[i] == PathMethod(StartWithoutSlash(mp.path), Some(AllMethods[i]))
  {
    AllMethodsAtSpec(StartWithoutSlash(mp.path));
  }

  /**
   An unresolved method under a base: each base entry contributes in base
   order, one pair with its own method when it has one, else seven pairs.
   */
  lemma InheritEachAppend(a: seq<PathMethod>, b: seq<PathMethod>, path: string)
    ensures InheritEach(a + b, path) == InheritEach(a, path) + InheritEach(b, path)
  {
    FlatMapAppend(a, b, x => InheritOne(x, path));
  }

  /**
   What one base entry contributes: pairs on the joined path only, each with
   a concrete method; the entry's own method when it has one, and every
   method when it has none.
   */
  lemma InheritOneMember(base: PathMethod, path: string, q: PathMethod)
    ensures q in InheritOne(base, path) <==>
              q.path == JoinPath(base.path, path) && q.httpMethod.Some? &&
              (base.httpMethod.Some? ==> q.httpMethod == base.httpMethod)
  {
    if base.httpMethod.None? {
      AllMethodsAtMember(JoinPath(base.path, path), q);
    }
  }

  /**
   An unresolved method under a base: a pair comes out exactly when some base
   entry's path joined with the method-level path is its path and its method
   is that entry's method, or any method if the entry has none.
   */
  lemma MergeUnresolvedWithBase(bases: seq<PathMethod>, mp: PathMethod, q: PathMethod)
    requires mp.httpMethod.None?
    ensures MergePair(Some(bases), mp) == InheritEach(bases, mp.path)
    ensures q in MergePair(Some(bases), mp) <==>
              exists i :: 0 <= i < |bases| && q.path == JoinPath(bases[i].path, mp.path) && q.httpMethod.Some? &&
                          (bases[i].httpMethod.Some? ==> q.httpMethod == bases[i].httpMethod)
  {
    FlatMapMember(bases, b => InheritOne(b, mp.path), q);
    forall i | 0 <= i < |bases| {
      InheritOneMember(bases[i], mp.path, q);
    }
  }

  /** A single base entry with a method gives one pair; one without gives all seven. */
  lemma InheritSingle(base: PathMethod, path: string)
    ensures base.httpMethod.Some? ==>
              InheritEach([base], path) == [PathMethod(JoinPath(base.path, path), base.httpMethod)]
    ensures base.httpMethod.None? ==> InheritEach([base], path) == AllMethodsAt(JoinPath(base.path, path))
  {
    FlatMapSingle(base, x => InheritOne(x, path));
  }

  lemma InheritOneResolved(base: PathMethod, path: string)
    ensures AllResolved(InheritOne(base, path))
  {
    AllMethodsAtSpec(JoinPath(base.path, path));
  }

  /** Every pair the merge of one method-level pair emits carries a concrete method. */
  lemma MergePairResolved(base: Option<seq<PathMethod>>, mp: PathMethod)
    ensures AllResolved(MergePair(base, mp))
  {
    if mp.httpMethod.Some? && base.Some? {
      JoinEachSpec(base.value, mp.path, mp.httpMethod.value);
    } else if mp.httpMethod.None? && base.Some? {
      var f := x => InheritOne(x, mp.path);
      forall i, j | 0 <= i < |base.value| && 0 <= j < |f(base.value[i])|
        ensures f(base.value[i])[j].httpMethod.Some?
      {
        InheritOneResolved(base.value[i], mp.path);
      }
      FlatMapAll(base.value, f, (q: PathMethod) => q.httpMethod.Some?);
    } else if mp.httpMethod.None? {
      AllMethodsAtSpec(StartWithoutSlash(mp.path));
    }
  }

  lemma MergePairsResolved(base: Option<seq<PathMethod>>, mps: seq<PathMethod>)
    ensures AllResolved(MergePairs(base, mps))
  {
    var f := mp => MergePair(base, mp);
    forall i, j | 0 <= i < |mps| && 0 <= j < |f(mps[i])|
      ensures f(mps[i])[j].httpMethod.Some?
    {
      MergePairResolved(base, mps[i]);
    }
    FlatMapAll(mps, f, (q: PathMethod) => q.httpMethod.Some?);
  }

  /** Every pair `getMethodAnnotations` returns has a concrete method. */
  lemma MethodEndpointsResolved(anns: seq<Annotation>, base: Option<seq<PathMethod>>)
    ensures AllResolved(MethodEndpoints(anns, base))
  {
    var f := a => AnnotationEndpoints(a, base);
    forall i, j | 0 <= i < |anns| && 0 <= j < |f(anns[i])|
      ensures f(anns[i])[j].httpMethod.Some?
    {
      MergePairsResolved(base, Resolve(anns[i]));
    }
    FlatMapAll(anns, f, (q: PathMethod) => q.httpMethod.Some?);
  }

  /** Method-level pairs are merged one by one, in order. */
  /** One method-level pair on its own is merged by exactly its branch of `MergePair`. */
  lemma MergePairsSingle(base: Option<seq<PathMethod>>, mp: PathMethod)
    ensures MergePairs(base, [mp]) == MergePair(base, mp)
  {
    FlatMapSingle(mp, x => MergePair(base, x));
  }

  lemma MergePairsAppend(base: Option<seq<PathMethod>>, a: seq<PathMethod>, b: seq<PathMethod>)
    ensures MergePairs(base, a + b) == MergePairs(base, a) + MergePairs(base, b)
  {
    FlatMapAppend(a, b, mp => MergePair(base, mp));
  }

  /**
   Annotations are processed one by one: a mapping annotation appends the
   merge of its resolved pairs, any other annotation appends nothing.
   */
  lemma MethodEndpointsAppend(a: seq<Annotation>, b: seq<Annotation>, base: Option<seq<PathMethod>>)
    ensures MethodEndpoints(a + b, base) == MethodEndpoints(a, base) + MethodEndpoints(b, base)
  {
    FlatMapAppend(a, b, x => AnnotationEndpoints(x, base));
  }

  lemma MethodEndpointsSingle(a: Annotation, base: Option<seq<PathMethod>>)
    ensures IsMappingName(a.name) ==> MethodEndpoints([a], base) == MergePairs(base, Resolve(a))
    ensures !IsMappingName(a.name) ==> MethodEndpoints([a], base) == []
  {
    FlatMapSingle(a, x => AnnotationEndpoints(x, base));
  }
}

=== FILE: module_to_component.dfy ===
/**
 `ModuleToComponentInfoObject`: which components a module contains. Java
 references that may be null are `Option`s; `C` stands for the component
 type, which this model does not look into.
 */
module ModuleToComponentInfo {
  import opened Wrappers

  datatype ModuleToComponent<C> = ModuleToComponent(moduleName: Option<string>, components: Option<seq<C>>)

  /** The constructor records the name; the component list starts out null. */
  function New<C>(name: Option<string>): (r: ModuleToComponent<C>)
    ensures r.moduleName == name
    ensures r.components.None?
  {
    ModuleToComponent(name, None)
  }

  /** `setComponents`: `getComponents` then returns the list given; the name is kept. */
  function SetComponents<C>(o: ModuleToComponent<C>, cs: Option<seq<C>>): (r: ModuleToComponent<C>)
    ensures r.components == cs
    ensures r.moduleName == o.moduleName
  {
    o.(components := cs)
  }

  /** `setModuleName`: `getModuleName` then returns the name given; the components are kept. */
  function SetModuleName<C>(o: ModuleToComponent<C>, name: Option<string>): (r: ModuleToComponent<C>)
    ensures r.moduleName == name
    ensures r.components == o.components
  {
    o.(moduleName := name)
  }

  /**
   `addComponent`: a null list becomes the one-element list, an existing list
   gets `c` at its end with its earlier elements in order; the name is kept.
   */
  function AddComponent<C>(o: ModuleToComponent<C>, c: C): (r: ModuleToComponent<C>)
    ensures r.moduleName == o.moduleName
    ensures r.components.Some?
    ensures o.components.None? ==> r.components.value == [c]
    ensures o.components.Some? ==>
              |r.components.value| == |o.components.value| + 1 &&
              r.components.value[..|o.components.value|] == o.components.value &&
              r.components.value[|o.components.value|] == c
  {
    var existing := o.components.GetOr([]);
    o.(components := Some(existing + [c]))
  }

  /** Adds the components one at a time, in order. */
  function AddComponents<C>(o: ModuleToComponent<C>, cs: seq<C>): ModuleToComponent<C>
    decreases |cs|
  {
    if cs == [] then o else AddComponents(AddComponent(o, cs[0]), cs[1..])
  }

  /** Adding to an existing list appends all the new components after the old ones. */
  lemma {:induction false} AddComponentsAppend<C>(o: ModuleToComponent<C>, cs: seq<C>)
    requires o.components.Some?
    ensures AddComponents(o, cs) == o.(components := Some(o.components.value + cs))
    decreases |cs|
  {
    if cs == [] {
      assert o.components.value + cs == o.components.value;
    } else {
      var o' := AddComponent(o, cs[0]);
      AddComponentsAppend(o', cs[1..]);
      assert o.components.value + [cs[0]] + cs[1..] == o.components.value + cs;
    }
  }

  /** Adding components one by one to a fresh object collects exactly them, in order. */
  lemma AddComponentsToNew<C>(name: Option<string>, cs: seq<C>)
    requires cs != []
    ensures AddComponents(New<C>(name), cs) == ModuleToComponent(name, Some(cs))
  {
    var o' := AddComponent(New<C>(name), cs[0]);
    AddComponentsAppend(o', cs[1..]);
    assert [cs[0]] + cs[1..] == cs;
  }
}

=== FILE: seqs.dfy ===
/** Sequence helpers shared by the resolve, merge and extraction steps. */
module Seqs {

  /** Applies `f` to every element and concatenates the results, in order. */
  function FlatMap<T, U>(xs: seq<T>, f: T -> seq<U>): seq<U> {
    if xs == [] then [] else f(xs[0]) + FlatMap(xs[1..], f)
  }

  /** Applies `f` to every element, in order. */
  function Map<T, U>(xs: seq<T>, f: T -> U): seq<U> {
    if xs == [] then [] else [f(xs[0])] + Map(xs[1..], f)
  }

  /** The i-th result is `f` of the i-th element, and there is one result per element. */
  lemma {:induction false} MapSpec<T, U>(xs: seq<T>, f: T -> U)
    ensures |Map(xs, f)| == |xs|
    ensures forall i :: 0 <= i < |xs| ==> Map(xs, f)[i] == f(xs[i])
  {
    if xs != [] {
      MapSpec(xs[1..], f);
      var r := [f(xs[0])] + Map(xs[1..], f);
      forall i | 0 < i < |xs| ensures r[i] == f(xs[i]) {
        assert r[i] == Map(xs[1..], f)[i - 1];
        assert xs[1..][i - 1] == xs[i];
      }
    }
  }

  /** The results for two consecutive runs of elements are concatenated. */
  lemma {:induction false} FlatMapAppend<T, U>(xs: seq<T>, ys: seq<T>, f: T -> seq<U>)
    ensures FlatMap(xs + ys, f) == FlatMap(xs, f) + FlatMap(ys, f)
  {
    if xs == [] {
      assert xs + ys == ys;
    } else {
      assert (xs + ys)[0] == xs[0];
      assert (xs + ys)[1..] == xs[1..] + ys;
      FlatMapAppend(xs[1..], ys, f);
    }
  }

  lemma FlatMapCons<T, U>(xs: seq<T>, f: T -> seq<U>)
    requires xs != []
    ensures FlatMap(xs, f) == f(xs[0]) + FlatMap(xs[1..], f)
  {
  }

  lemma FlatMapSingle<T, U>(x: T, f: T -> seq<U>)
    ensures FlatMap([x], f) == f(x)
  {
    assert [x][1..] == [];
  }

  /** An element is in the result exactly when it is in the result for some element of `xs`. */
  lemma {:induction false} FlatMapMember<T, U>(xs: seq<T>, f: T -> seq<U>, y: U)
    ensures y in FlatMap(xs, f) <==> exists i :: 0 <= i < |xs| && y in f(xs[i])
  {
    if xs != [] {
      FlatMapMember(xs[1..], f, y);
      if y in FlatMap(xs[1..], f) {
        var i :| 0 <= i < |xs[1..]| && y in f(xs[1..][i]);
        assert xs[1..][i] == xs[i + 1];
      }
      if exists i :: 0 <= i < |xs| && y in f(xs[i]) {
        var i :| 0 <= i < |xs| && y in f(xs[i]);
        if i > 0 {
          assert xs[1..][i - 1] == xs[i];
        }
      }
    }
  }

  /** Every element of the result comes from the result for some element of `xs`. */
  lemma {:induction false} FlatMapAll<T, U>(xs: seq<T>, f: T -> seq<U>, p: U -> bool)
    requires forall i, j :: 0 <= i < |xs| && 0 <= j < |f(xs[i])| ==> p(f(xs[i])[j])
    ensures forall k :: 0 <= k < |FlatMap(xs, f)| ==> p(FlatMap(xs, f)[k])
  {
    if xs != [] {
      FlatMapAll(xs[1..], f, p);
      var h := f(xs[0]);
      var t := FlatMap(xs[1..], f);
      forall k | 0 <= k < |h + t| ensures p((h + t)[k]) {
        if k < |h| {
          assert (h + t)[k] == f(xs[0])[k];
        } else {
          assert (h + t)[k] == t[k - |h|];
        }
      }
    }
  }
}

=== FILE: slashes.dfy ===
/**
 Slash normalisation of the Spring reader: `startWithSlash`,
 `startWithoutSlash`, and the join of a class-level path with a
 method-level path that the merge step builds from them.
 */
module Slashes {
  import opened JavaStrings

  /**
   Trims `s` and puts a '/' in front unless the trimmed string is empty or
   already starts with one.
   */
  function StartWithSlash(s: string): (r: string)
    ensures r == [] || StartsWithSlash(r)
    ensures r == [] <==> Trim(s) == []
    ensures StartsWithSlash(Trim(s)) ==> r == Trim(s)
    ensures Trim(s) != [] && !StartsWithSlash(Trim(s)) ==> r == "/" + Trim(s)
  {
    var t := Trim(s);
    if t == [] || StartsWithSlash(t) then t else "/" + t
  }

  /** Trims `s` and removes at most one leading '/'. */
  function StartWithoutSlash(s: string): (r: string)
    ensures StartsWithSlash(Trim(s)) ==> Trim(s) == "/" + r
    ensures !StartsWithSlash(Trim(s)) ==> r == Trim(s)
  {
    var t := Trim(s);
    if StartsWithSlash(t) then t[1..] else t
  }

  /** `startWithSlash` is idempotent. */
  lemma StartWithSlashIdempotent(s: string)
    ensures StartWithSlash(StartWithSlash(s)) == StartWithSlash(s)
  {
    var r := StartWithSlash(s);
    assert IsTrimmed(r);
    TrimTrimmed(r);
  }

  /**
   The two normalisations differ by exactly one leading '/' whenever the
   trimmed input is non-empty, and both give "" otherwise.
   */
  lemma SlashNormalFormsAgree(s: string)
    ensures Trim(s) != [] ==> StartWithSlash(s) == "/" + StartWithoutSlash(s)
    ensures Trim(s) == [] ==> StartWithSlash(s) == [] && StartWithoutSlash(s) == []
  {
  }

  /**
   The path the merge step builds from a class-level path and a method-level
   path: the class-level path loses one leading '/', the method-level path
   gains one when it has none.
   */
  function JoinPath(base: string, suffix: string): string {
    StartWithoutSlash(base) + StartWithSlash(suffix)
  }

  /**
   The method-level path contributes exactly one '/' at the seam when it is
   not blank, and nothing at all when it is.
   */
  lemma JoinPathSeam(base: string, suffix: string)
    ensures Trim(suffix) == [] ==> JoinPath(base, suffix) == StartWithoutSlash(base)
    ensures Trim(suffix) != [] ==>
              JoinPath(base, suffix) == StartWithoutSlash(base) + ("/" + StartWithoutSlash(suffix))
  {
    SlashNormalFormsAgree(suffix);
    if Trim(suffix) == [] {
      assert StartWithoutSlash(base) + [] == StartWithoutSlash(base);
    }
  }

  /**
   `startWithoutSlash` leaves a leading '/' only when the trimmed input starts
   with "//": exactly one slash is removed.
   */
  lemma StripKeepsSlash(s: string)
    ensures StartsWithSlash(StartWithoutSlash(s)) <==> |Trim(s)| >= 2 && Trim(s)[..2] == "//"
  {
    var t := Trim(s);
    var r := StartWithoutSlash(s);
    if StartsWithSlash(t) {
      assert t == "/" + r;
      if |t| >= 2 {
        assert t[..2] == [t[0], t[1]] && t[1] == r[0];
      }
    } else {
      assert r == t;
      if |t| >= 2 {
        assert t[..2][0] == t[0];
      }
    }
  }

  /**
   When a joined path starts with '/': only when the class-level part keeps
   a leading '/' of its own (see `StripKeepsSlash`), or when that part is
   blank and the method-level path is not, so that the join is just the
   method-level path with its added '/'.
   */
  lemma JoinLeadingSlash(base: string, suffix: string)
    ensures StartsWithSlash(JoinPath(base, suffix)) <==>
              StartsWithSlash(StartWithoutSlash(base)) || (StartWithoutSlash(base) == [] && Trim(suffix) != [])
  {
    JoinPathSeam(base, suffix);
    var b := StartWithoutSlash(base);
    if Trim(suffix) != [] {
      var j := b + ("/" + StartWithoutSlash(suffix));
      assert JoinPath(base, suffix) == j;
      if b == [] {
        assert j[0] == '/';
      } else {
        assert j[0] == b[0];
      }
    } else {
      assert JoinPath(base, suffix) == b;
    }
  }

  /** "/rest" joined with "/x" is "rest/x": the leading slash is gone. */
  lemma JoinExampleRest()
    ensures JoinPath("/rest", "/x") == "rest/x"
  {
    TrimTrimmed("/rest");
    TrimTrimmed("/x");
    assert StartWithoutSlash("/rest") == "rest";
    assert StartWithSlash("/x") == "/x";
  }

  /** An empty method-level path under "/base" gives "base". */
  lemma JoinExampleEmptySuffix()
    ensures JoinPath("/base", "") == "base"
  {
    TrimTrimmed("/base");
    TrimTrimmed("");
    assert StartWithoutSlash("/base") == "base";
  }

  /** A class-level path with a trailing '/' gives a double slash. */
  lemma JoinExampleTrailingSlash()
    ensures JoinPath("/rest/", "/x") == "rest//x"
  {
    TrimTrimmed("/rest/");
    TrimTrimmed("/x");
    assert StartWithoutSlash("/rest/") == "rest/";
    assert StartWithSlash("/x") == "/x";
  }
}

=== FILE: spring_reader.dfy ===
/**
 The Spring endpoint reader (`getPathsAndMethods`): classes are
 classified by their annotations, and every method of a class that is a
 controller or carries a class-level mapping contributes its merged pairs.
 The parsed source tree is given as a sequence of classes.
 */
module SpringReader {
  import opened Wrappers
  import opened HttpTables
  import opened Annotations
  import opened Merge
  import opened Seqs

  /** A method, seen only through its annotations. */
  datatype JavaMethod = JavaMethod(annotations: seq<Annotation>)

  /** A class: its own annotations and its methods, in source order. */
  datatype JavaClass = JavaClass(annotations: seq<Annotation>, methods: seq<JavaMethod>)

  /** The class-level base mapping (`None` when there is none) and the controller flag. */
  datatype ClassInfo = ClassInfo(baseMapping: Option<seq<PathMethod>>, controller: bool)

  /** The position of the last mapping annotation, or -1 when there is none. */
  function LastMappingIndex(anns: seq<Annotation>): (i: int)
    ensures -1 <= i < |anns|
    ensures i == -1 <==> forall k :: 0 <= k < |anns| ==> !IsMappingName(anns[k].name)
    ensures 0 <= i ==> IsMappingName(anns[i].name)
    ensures 0 <= i ==> forall k :: i < k < |anns| ==> !IsMappingName(anns[k].name)
  {
    if anns == [] then -1
    else if IsMappingName(anns[|anns| - 1].name) then |anns| - 1
    else LastMappingIndex(anns[..|anns| - 1])
  }

  /** Whether any of the annotations marks the class as a controller. */
  predicate HasControllerMarker(anns: seq<Annotation>) {
    exists k :: 0 <= k < |anns| && IsControllerName(anns[k].name)
  }

  /** The base mapping the last mapping annotation resolves to, if there is one. */
  function LastBase(anns: seq<Annotation>): Option<seq<PathMethod>> {
    var i := LastMappingIndex(anns);
    if i == -1 then None else Some(Resolve(anns[i]))
  }

  /** What the class annotations seen so far say: the base mapping and the controller flag. */
  function ClassSummary(anns: seq<Annotation>): ClassInfo {
    ClassInfo(LastBase(anns), HasControllerMarker(anns))
  }

  /**
   One step of the class-annotation loop: a controller marker sets the flag,
   a mapping annotation replaces the base, anything else changes nothing.
   */
  function Absorb(info: ClassInfo, a: Annotation): ClassInfo {
    match Categorize(a.name)
    case ControllerMarker => info.(controller := true)
    case MappingDecl => info.(baseMapping := Some(Resolve(a)))
    case Irrelevant => info
  }

  /**
   `getBaseMappingAndController`: the class is a controller when any of its
   annotations is a controller marker, and its base mapping is the resolution
   of its last mapping annotation, earlier ones being overwritten.
   */
  method GetBaseMappingAndController(clz: JavaClass) returns (info: ClassInfo)
    ensures info.controller <==> HasControllerMarker(clz.annotations)
    ensures info.baseMapping == LastBase(clz.annotations)
  {
    var anns := clz.annotations;
    info := ClassInfo(None, false);
    var n := 0;
    assert anns[..0] == [];
    while n < |anns|
      invariant 0 <= n <= |anns|
      invariant info == ClassSummary(anns[..n])
    {
      AbsorbPrefix(anns, n);
      info := Absorb(info, anns[n]);
      n := n + 1;
    }
    assert anns[..n] == anns;
  }

  /** Absorbing the next annotation summarises the next prefix. */
  lemma AbsorbPrefix(anns: seq<Annotation>, n: nat)
    requires n < |anns|
    ensures Absorb(ClassSummary(anns[..n]), anns[n]) == ClassSummary(anns[..n + 1])
  {
    ClassPrefixStep(anns, n);
  }

  /** One more class annotation, by its category: what the controller flag and the base become. */
  lemma ClassAnnotationStep(anns: seq<Annotation>, a: Annotation)
    ensures Categorize(a.name) == ControllerMarker ==>
              HasControllerMarker(anns + [a]) && LastBase(anns + [a]) == LastBase(anns)
    ensures Categorize(a.name) == MappingDecl ==>
              (HasControllerMarker(anns + [a]) <==> HasControllerMarker(anns)) && LastBase(anns + [a]) == Some(Resolve(a))
    ensures Categorize(a.name) == Irrelevant ==>
              (HasControllerMarker(anns + [a]) <==> HasControllerMarker(anns)) && LastBase(anns + [a]) == LastBase(anns)
  {
    LastMappingWins(anns, a);
    ControllerMarkerSnoc(anns, a);
  }

  /** `ClassAnnotationStep` for the prefixes of one annotation list. */
  lemma ClassPrefixStep(anns: seq<Annotation>, n: nat)
    requires n < |anns|
    ensures Categorize(anns[n].name) == ControllerMarker ==>
              HasControllerMarker(anns[..n + 1]) && LastBase(anns[..n + 1]) == LastBase(anns[..n])
    ensures Categorize(anns[n].name) == MappingDecl ==>
              (HasControllerMarker(anns[..n + 1]) <==> HasControllerMarker(anns[..n]))
              && LastBase(anns[..n + 1]) == Some(Resolve(anns[n]))
    ensures Categorize(anns[n].name) == Irrelevant ==>
              (HasControllerMarker(anns[..n + 1]) <==> HasControllerMarker(anns[..n]))
              && LastBase(anns[..n + 1]) == LastBase(anns[..n])
  {
    assert anns[..n + 1] == anns[..n] + [anns[n]];
    ClassAnnotationStep(anns[..n], anns[n]);
  }

  lemma ControllerMarkerSnoc(anns: seq<Annotation>, a: Annotation)
    ensures HasControllerMarker(anns + [a]) <==> HasControllerMarker(anns) || IsControllerName(a.name)
  {
    if HasControllerMarker(anns) {
      var k :| 0 <= k < |anns| && IsControllerName(anns[k].name);
      assert (anns + [a])[k] == anns[k];
    }
    if HasControllerMarker(anns + [a]) && !IsControllerName(a.name) {
      var k :| 0 <= k < |anns + [a]| && IsControllerName((anns + [a])[k].name);
      assert k < |anns| && (anns + [a])[k] == anns[k];
    }
    if IsControllerName(a.name) {
      assert (anns + [a])[|anns|] == a;
    }
  }

  /** The endpoints of all methods of a class, given its base mapping. */
  function MethodsEndpoints(methods: seq<JavaMethod>, base: Option<seq<PathMethod>>): seq<PathMethod> {
    FlatMap(methods, (m: JavaMethod) => MethodEndpoints(m.annotations, base))
  }

  /** What one class contributes: nothing unless it is a controller or has a base mapping. */
  function ClassEndpoints(clz: JavaClass): seq<PathMethod> {
    var base := LastBase(clz.annotations);
    if HasControllerMarker(clz.annotations) || base.Some? then MethodsEndpoints(clz.methods, base) else []
  }

  /** The endpoints of all classes, class by class. */
  function Extract(classes: seq<JavaClass>): seq<PathMethod> {
    FlatMap(classes, ClassEndpoints)
  }

  /**
   The body of the class loop of `getPathsAndMethods`: a controller or mapped
   class appends the merged pairs of each of its methods, in method order.
   */
  method ClassPathsAndMethods(clz: JavaClass) returns (paths: seq<PathMethod>)
    ensures paths == ClassEndpoints(clz)
  {
    var info := GetBaseMappingAndController(clz);
    paths := [];
    if info.controller || info.baseMapping.Some? {
      var m := 0;
      while m < |clz.methods|
        invariant 0 <= m <= |clz.methods|
        invariant paths == MethodsEndpoints(clz.methods[..m], info.baseMapping)
      {
        var ps := MethodEndpoints(clz.methods[m].annotations, info.baseMapping);
        MethodsEndpointsPrefix(clz.methods, m, info.baseMapping);
        paths := paths + ps;
        m := m + 1;
      }
      assert clz.methods[..m] == clz.methods;
    }
  }

  /**
   `getPathsAndMethods`: walks the classes, appending each class's pairs;
   every returned pair has a concrete method.
   */
  method GetPathsAndMethods(classes: seq<JavaClass>) returns (paths: seq<PathMethod>)
    ensures paths == Extract(classes)
    ensures AllResolved(paths)
  {
    paths := [];
    var c := 0;
    while c < |classes|
      invariant 0 <= c <= |classes|
      invariant paths == Extract(classes[..c])
    {
      var ps := ClassPathsAndMethods(classes[c]);
      ExtractPrefix(classes, c);
      paths := paths + ps;
      c := c + 1;
    }
    assert classes[..c] == classes;
    ExtractResolved(classes);
  }

  /** `ExtractSnoc` for the prefixes of one class list. */
  lemma ExtractPrefix(classes: seq<JavaClass>, c: nat)
    requires c < |classes|
    ensures Extract(classes[..c + 1]) == Extract(classes[..c]) + ClassEndpoints(classes[c])
  {
    assert classes[..c + 1] == classes[..c] + [classes[c]];
    ExtractSnoc(classes[..c], classes[c]);
  }

  /** `MethodsEndpointsSnoc` for the prefixes of one method list. */
  lemma MethodsEndpointsPrefix(methods: seq<JavaMethod>, m: nat, base: Option<seq<PathMethod>>)
    requires m < |methods|
    ensures MethodsEndpoints(methods[..m + 1], base) == MethodsEndpoints(methods[..m], base) + MethodEndpoints(methods[m].annotations, base)
  {
    assert methods[..m + 1] == methods[..m] + [methods[m]];
    MethodsEndpointsSnoc(methods[..m], methods[m], base);
  }

  /** Appending one class appends its pairs. */
  lemma ExtractSnoc(a: seq<JavaClass>, c: JavaClass)
    ensures Extract(a + [c]) == Extract(a) + ClassEndpoints(c)
  {
    FlatMapAppend(a, [c], ClassEndpoints);
    FlatMapSingle(c, ClassEndpoints);
  }

  /** Appending one method appends its pairs. */
  lemma MethodsEndpointsSnoc(a: seq<JavaMethod>, m: JavaMethod, base: Option<seq<PathMethod>>)
    ensures MethodsEndpoints(a + [m], base) == MethodsEndpoints(a, base) + MethodEndpoints(m.annotations, base)
  {
    var f := (x: JavaMethod) => MethodEndpoints(x.annotations, base);
    FlatMapAppend(a, [m], f);
    FlatMapSingle(m, f);
  }

  lemma MethodsEndpointsResolved(methods: seq<JavaMethod>, base: Option<seq<PathMethod>>)
    ensures AllResolved(MethodsEndpoints(methods, base))
  {
    var f := (x: JavaMethod) => MethodEndpoints(x.annotations, base);
    forall i, j | 0 <= i < |methods| && 0 <= j < |f(methods[i])|
      ensures f(methods[i])[j].httpMethod.Some?
    {
      MethodEndpointsResolved(methods[i].annotations, base);
    }
    FlatMapAll(methods, f, (q: PathMethod) => q.httpMethod.Some?);
  }

  /** Every endpoint the reader returns carries a concrete HTTP method. */
  lemma ExtractResolved(classes: seq<JavaClass>)
    ensures AllResolved(Extract(classes))
  {
    forall i, j | 0 <= i < |classes| && 0 <= j < |ClassEndpoints(classes[i])|
      ensures ClassEndpoints(classes[i])[j].httpMethod.Some?
    {
      MethodsEndpointsResolved(classes[i].methods, LastBase(classes[i].annotations));
    }
    FlatMapAll(classes, ClassEndpoints, (q: PathMethod) => q.httpMethod.Some?);
  }

  /** A class that is neither a controller nor mapped contributes nothing, whatever its methods. */
  lemma ClassSkipped(clz: JavaClass)
    requires !HasControllerMarker(clz.annotations)
    requires forall k :: 0 <= k < |clz.annotations| ==> !IsMappingName(clz.annotations[k].name)
    ensures ClassEndpoints(clz) == []
  {
  }

  /** The classes contribute independently and in order. */
  lemma ExtractAppend(a: seq<JavaClass>, b: seq<JavaClass>)
    ensures Extract(a + b) == Extract(a) + Extract(b)
  {
    FlatMapAppend(a, b, ClassEndpoints);
  }

  /**
   Several class-level mapping annotations: the last one is the base, and an
   irrelevant annotation after it does not change that.
   */
  lemma LastMappingWins(anns: seq<Annotation>, a: Annotation)
    ensures IsMappingName(a.name) ==> LastBase(anns + [a]) == Some(Resolve(a))
    ensures !IsMappingName(a.name) ==> LastBase(anns + [a]) == LastBase(anns)
  {
    assert (anns + [a])[..|anns|] == anns;
  }
}

=== FILE: wrappers.dfy ===
/** The nullable-reference idiom of the source: `None` stands for Java's `null`. */
module Wrappers {

  datatype Option<+T> = None | Some(value: T) {

    /** Returns the value in Some, or the given default for None. */
    function GetOr(default: T): T {
      match this
      case Some(v) => v
      case None => default
    }
  }
}
